=== FILE: README.md ===
# Fitness tracker body-fat analysis and daily metrics, modelled in Dafny

This project models the computational core of a fitness-tracker web
application.

The largest part is the server endpoint that estimates body fat from photos
(`POST /api/analyze-body-fat`). Its pipeline, in order:

- a request guard;
- splitting each photo's data URI into MIME type and base64 payload;
- the AI call;
- removal of Markdown code fences from the reply;
- the balanced-brace search for the first acceptable JSON object;
- validation and normalisation of that object;
- a 60/40 combination of the AI estimate with a manual anthropometric estimate
  (Deurenberg and US Navy), rounded with `toFixed(1)`.

On the client side it models the four tabs' logic:

- Body-fat tab: the manual calculation, the analysis flow with its fallback to
  the manual value, and what the summary cards display.
- Profile tab: BMR (Mifflin-St Jeor), TDEE, the daily calorie goal, BMI and its
  category, and the save guard.
- Calories tab: the daily total, the 2200 kcal goal and its progress variant,
  and the entry built by "add food".
- Workouts tab: the entry built by "add workout", the totals, and the
  high-intensity share.
- The debounced search box shared by the calories and workouts tabs.

Everything is pure functions over immutable datatypes, except the
balanced-JSON extractor. That one is written as the source writes it: an outer
`while (true)` over candidate start positions and an inner scan. It is proved
to compute the functional specification `BalancedJson.Extract`.

Modules:

- `JsNumbers`, `JsValues`, `JsStrings`: the JavaScript semantics the code
  relies on.
  - Numbers are exact reals plus one non-finite value.
  - Also covered: truthiness, `parseFloat` and numeric coercion of JSON values,
    `Math.round`, `toFixed(1)`.
  - Strings: `trim` with the ECMAScript whitespace set, `split`, and `length`
    in UTF-16 code units.
- `BalancedJson`, `Fences`, `AiValidation`, `BodyFat`, `BodyFatEndpoint`: the
  server (server/routes.ts).
  - `BodyFat` also holds the estimate and the classification that the
    body-fat tab shares.
- `BodyFatTab`, `Profile`, `Calories`, `Workouts`, `Search`: the client
  components.
- `Tally`: `reduce` sums and `filter` counts.
- `Cards`: card variants.
- `Outcomes`: `Option` and `Result`.

Foreign calls are parameters of the functions that make them:

| JavaScript call | Parameter |
|---|---|
| `JSON.parse` | `parseJson` |
| `parseFloat` | `parseFloat` / `parseText` |
| `parseInt` | `parseInt` |
| string-to-number coercion | `numberText` |
| `Math.log10` | `log10` |
| the AI model | `aiService` |
| the HTTP post from the client | `post` |
| the clock | `today`, `time` |

Notes on the code's behaviour:

- The endpoint always sends `combinedEstimate` rounded with
  `parseFloat(x.toFixed(1))`. Without usable manual measurements this is the
  AI value rounded to one decimal, not the AI value itself (server/routes.ts:258).
- The request guard checks only that there are at least two images. Their
  angles are never inspected (server/routes.ts:75).
- The body-fat tab checks the form with `parseFloat` but sends age and height
  through `parseInt` (client/src/components/BodyFatTab.tsx:147-148). An age typed as "0.5" passes the
  tab's own check, but the endpoint refuses it.
- The second fence replacement, `.replace(/```/g, '')`, can never find
  anything. The first replacement already removed every triple backtick, so
  the cleaned reply is just the trimmed result of the first replacement.

## Model

| member | source | states |
|---|---|---|
| JsNumbers.MathRound | client/src/components/WorkoutsTab.tsx:166 | `Math.round` returns the integer within half a unit of its argument; an exact half rounds up. |
| JsNumbers.Round | client/src/components/CaloriesTab.tsx:121 | `Math.round` on a possibly-NaN number stays NaN exactly when its argument is NaN. Otherwise the result is an integer within half a unit of the argument. |
| JsNumbers.ToFixed1 | server/routes.ts:258 | `parseFloat(x.toFixed(1))` has at most one decimal digit and lies within 0.05 of `x`. |
| JsNumbers.ToFixed1Idempotent | server/routes.ts:258 | Rounding to one decimal twice is the same as rounding once. |
| JsNumbers.Fixed1 | server/routes.ts:258 | The rounded combined estimate is finite exactly when the unrounded one is. A finite result has one decimal and is within 0.05 of the input. |
| JsValues.ParseFloat | server/routes.ts:226-227 | `parseFloat` of a JSON number returns the number. A string goes through the string parser. `undefined`, `null`, booleans and plain objects give NaN; arrays are not told apart from plain objects (see Left out). |
| JsValues.ToNumber | server/routes.ts:80-81 | Arithmetic coercion of a body field: numbers stay numbers; `null` and `false` give 0; `true` gives 1; `undefined` and plain objects give NaN; arrays are not told apart from plain objects (see Left out). |
| JsValues.TruthyIffNotFalsy | server/routes.ts:75 | A value is truthy exactly when it is not one of the five falsy JSON values: `undefined`, `null`, `false`, `0` and `""`. |
| JsStrings.LeadingSpace | server/routes.ts:170 | Counts the whitespace prefix that `trim` drops. The character after it is not whitespace. |
| JsStrings.TrailingSpace | server/routes.ts:170 | Counts the whitespace suffix that `trim` drops. The character before it is not whitespace. |
| JsStrings.Trim | server/routes.ts:170 | `trim` returns a slice of its input with only whitespace outside it. A non-empty result starts and ends with non-whitespace. The result is empty exactly when the input is all whitespace. |
| JsStrings.Split | server/routes.ts:147-148 | `split(sep)` returns at least one piece, and no piece contains the separator. |
| JsStrings.JoinSplit | server/routes.ts:147-148 | Joining the pieces of a split with the separator gives back the original string. |
| JsStrings.SplitJoin | server/routes.ts:147-148 | Splitting a join of separator-free pieces gives back the pieces. |
| JsStrings.SplitPrefix | server/routes.ts:147-148 | A separator-free prefix sticks to the first piece of the rest. |
| JsStrings.SplitAfter | server/routes.ts:147-148 | The text before the first separator is the first piece. The remaining pieces are the split of the rest. |
| JsStrings.SplitWhole | server/routes.ts:147-148 | A string without the separator splits into itself alone. |
| JsStrings.Utf16Length | client/src/components/CaloriesTab.tsx:98-100 | `length` counts UTF-16 code units: between one and two per character. |
| BalancedJson.IndexOfBrace | server/routes.ts:19-20 | `indexOf('{', from)` returns the first `{` at or after `from`, or nothing when there is none. |
| BalancedJson.CloseFrom | server/routes.ts:26-63 | The inner scan ends just after a `}` whenever it finds a closing position. |
| BalancedJson.FindFrom | server/routes.ts:15-67 | A found span lies in the text, runs from a `{` to a `}`, and its text is accepted by the parse check. |
| BalancedJson.Extract | server/routes.ts:15-67 | The extracted text is an accepted substring of the input and is brace-balanced: depth stays positive inside and returns to zero at the end, counting only braces outside strings and escapes. It starts with `{` and ends with `}`. The result is null exactly when no candidate of the skip chain is accepted; a text without `{` yields null. |
| BalancedJson.ExtractBalancedJson | server/routes.ts:15-67 | The loop form with `searchIdx`, `braceCount`, `inString` and `escapeNext` returns exactly the functional `Extract`. It terminates because `searchIdx` strictly increases. |
| BalancedJson.WalkCandidate | server/routes.ts:22-63 | The inner `for` loop from a `{` finds exactly the closing position of the functional scan. |
| BalancedJson.CloseFromBalanced | server/routes.ts:44-48 | When the scan reports a close, every proper prefix of the candidate has positive depth and the whole candidate has depth zero. |
| BalancedJson.WalkFromBraceBalanced | server/routes.ts:45-49 | A candidate closed by the scan is balanced. |
| BalancedJson.FoundIsBalanced | server/routes.ts:49-53 | The span the search returns is balanced. |
| BalancedJson.Candidates | server/routes.ts:18-59 | The candidates tried lie in the text, run from `{` to `}`, are balanced, and follow each other without overlap, because the search resumes after the closing brace. |
| BalancedJson.CandidatesSkipNothing | server/routes.ts:18-65 | The search passes over no `{` before the first candidate or between two consecutive ones. After the last candidate either no `{` remains (line 20) or the next `{` never closes (line 65). |
| BalancedJson.FirstAccepted | server/routes.ts:49-58 | Taking the first accepted candidate gives nothing exactly when no candidate is accepted; a result is one of the candidates and is accepted. |
| BalancedJson.ScanIsFirstAccepted | server/routes.ts:49-59 | The search returns the first candidate in the skip chain that the parse check accepts. |
| BalancedJson.ScanFindsIffAccepted | server/routes.ts:15-67 | The search finds nothing exactly when no candidate of the skip chain is accepted. |
| BalancedJson.FirstAcceptedIsFirst | server/routes.ts:50-58 | The chosen candidate is accepted, and every earlier candidate was rejected. |
| BalancedJson.EveryBraceInACandidate | server/routes.ts:18-59 | Every `{` the search passes opens a candidate or lies inside one, so the braces nested in a rejected candidate are never tried on their own. |
| BalancedJson.ExtractFindsAcceptedCandidate | server/routes.ts:15-67 | A found object is the text of a candidate of the skip chain, and every earlier candidate was rejected. |
| BalancedJson.ClosesWhereDepthReturns | server/routes.ts:44-48 | The inner scan stops exactly where the depth counted from the `{` first comes back to zero. |
| BalancedJson.BalancedCloses | server/routes.ts:46-49 | A balanced object ends with `}`: the last step brings the depth from positive to zero. |
| BalancedJson.FirstObjectFound | server/routes.ts:15-67 | Completeness: a balanced, accepted object with no `{` before it is what the extractor returns, whatever text follows it. |
| BalancedJson.WalkFromAppend | server/routes.ts:26-63 | Scanning a concatenation equals scanning the first part and then continuing from its state. |
| BalancedJson.EscapeHidesNext | server/routes.ts:29-37 | A backslash and the character after it leave the scan state unchanged. |
| BalancedJson.QuotedTextIgnored | server/routes.ts:39-44 | Inside a string, text without quotes or backslashes changes nothing, braces included. |
| BalancedJson.PlainTextDepth | server/routes.ts:44-47 | Outside strings, plain text changes the depth by its count of `{` minus its count of `}`. |
| BalancedJson.QuotedBracesIgnored | server/routes.ts:39-47 | A quoted plain string, braces included, leaves the depth unchanged. |
| BalancedJson.SkipsRejectedCandidate | server/routes.ts:55-59 | In `{x}{y}` with only `{y}` accepted, the rejected `{x}` is skipped and `{y}` is returned. |
| BalancedJson.UnclosedBraceEndsSearch | server/routes.ts:63-65 | When the first `{` never closes, the result is null, whatever acceptable objects lie inside or after it. |
| Fences.StripTaggedFences | server/routes.ts:170 | Removing ```` ``` ```` fences with an optional `json` tag in any letter case never lengthens the text. That it keeps the text outside the markers, for a bare marker and for a tagged one alike, is stated by `Fences.StripKeepsPlainPrefix`, `Fences.StripTagFenced` and `Fences.StripBareFenced`. |
| Fences.StripBareFences | server/routes.ts:170 | Removing bare ```` ``` ```` fences never lengthens the text. |
| Fences.NoTwoTicksCreated | server/routes.ts:170 | The first replacement never produces a leading pair of backticks from text that had none. |
| Fences.NoFenceAfterStrip | server/routes.ts:170 | No triple backtick is left after the first replacement. |
| Fences.BareStripKeepsFenceless | server/routes.ts:170 | The second replacement leaves fence-free text unchanged. |
| Fences.SecondReplaceRedundant | server/routes.ts:170 | The cleaned reply equals the trimmed result of the first replacement alone. |
| Fences.CleanReply | server/routes.ts:170 | The cleaned reply is no longer than the reply, holds no ```` ``` ```` marker, and neither starts nor ends with whitespace. A reply without backticks is only trimmed. |
| Fences.TrimKeepsFenceless | server/routes.ts:170 | Trimming fence-free text leaves it fence-free and no longer. |
| Fences.PlainTextUnstripped | server/routes.ts:170 | Text without backticks passes through the first replacement unchanged. |
| Fences.StripKeepsPlainPrefix | server/routes.ts:170 | Text with no backtick in front of the rest passes through the first replacement untouched, and the rest is stripped on its own. |
| Fences.StripFenced | server/routes.ts:170 | For `pre`, a ```` ```json ```` marker, `obj`, a ```` ``` ```` marker and `post`, with no backtick in `pre` or `obj`: the first replacement keeps `pre` and `obj` whole, deletes the opening marker with its tag, and strips the rest on its own. |
| Fences.TrimKeepsCore | server/routes.ts:170 | Trimming never cuts into a stretch that starts and ends with non-whitespace. |
| Fences.TrimAround | server/routes.ts:170 | Trimming `pre + mid + rest`, with `mid` non-empty and not whitespace at either end, keeps `mid` whole between a suffix of `pre` and a prefix of `rest`. |
| Fences.FencedObjectFound | server/routes.ts:15-67 | A reply of the form text, ```` ```json ````, object, ```` ``` ````, text, with no `{` or backtick before the object and no backtick in it, yields that object when it is balanced and accepted. |
| Fences.StripTagFenced | server/routes.ts:170 | For backtick-free `pre`, a marker followed by `tag`, and `rest`, where `tag` spells `json` in any letter case: the first replacement keeps `pre`, deletes the marker together with its tag, and strips `rest` on its own. |
| Fences.StripBareFenced | server/routes.ts:170 | For backtick-free `pre`, a bare marker, and `rest` that does not open with a `json` tag in any case: the first replacement keeps `pre`, deletes only the three backticks, and strips `rest` on its own. |
| Fences.BareMarkerDropped | server/routes.ts:170 | A leading bare marker not followed by a `json` tag is deleted alone, and nothing after it is taken with it. |
| Fences.StrippedObjectFound | server/routes.ts:15-67 | When the first replacement leaves brace-free text, then a balanced accepted object, then anything, the extractor returns that object from the cleaned reply. |
| Fences.TagFencedObjectFound | server/routes.ts:15-67 | A reply of the form text, marker with a `json` tag in any letter case, text, object, anything, with no `{` or backtick before the object and no backtick in it, yields that object when it is balanced and accepted. |
| Fences.BareFencedObjectFound | server/routes.ts:15-67 | The same for a bare marker, one whose following text does not open with `json` in any letter case (the marker would take that as its tag): the object is found when it is balanced and accepted. |
| Fences.StripOnlyDeletesFenceChars | server/routes.ts:170 | Fence removal only deletes characters (multiset inclusion). It keeps every character other than backticks and the letters of `json`, in any case. |
| Fences.DroppedPrefix | server/routes.ts:170 | Dropping one fence, with or without its tag, deletes only fence characters. |
| AiValidation.Validate | server/routes.ts:186-213 | An object is accepted exactly when its body-fat value is a number in [0, 100], its confidence is absent or a number, or numeric string, in [0, 1], and its reasoning is absent or a non-blank string. Each failure is reported as the first failing field. An accepted result is well formed and keeps the given values. A missing confidence becomes 0.8 and a missing reasoning gets the fallback text. |
| AiValidation.FallbackNotBlank | server/routes.ts:212 | The fallback reasoning is not blank, so every accepted analysis has non-blank reasoning. |
| AiValidation.DefaultsWhenAbsent | server/routes.ts:202-213 | An object with only a valid body-fat value validates to that value, confidence 0.8 and the fallback text. |
| AiValidation.RejectsBodyFatAboveHundred | server/routes.ts:186-189 | A body-fat value of 150 is refused. |
| AiValidation.RejectsConfidenceAboveOne | server/routes.ts:198-199 | A confidence of 1.5 is refused. |
| AiValidation.PresentNullIsNotAbsent | server/routes.ts:193-210 | A `null` confidence, a `false` reasoning and a whitespace-only reasoning are errors, not defaults. |
| BodyFat.Bmi | client/src/components/BodyFatTab.tsx:54-55 | BMI is finite exactly when the height is not zero. Multiplied by the squared height in metres, it gives back the weight. |
| BodyFat.SquarePositive | server/routes.ts:80-81 | The squared height in metres of a non-zero height is positive, so the BMI division is defined. |
| BodyFat.Deurenberg | client/src/components/BodyFatTab.tsx:57-58 | Deurenberg is `1.20 bmi + 0.23 age` minus 16.2 for men and minus 5.4 otherwise. |
| BodyFat.Navy | client/src/components/BodyFatTab.tsx:60-67 | The female Navy value is finite exactly for a non-zero height, and times the height it gives back `(0.74 waist - 0.082 neck - 34.89) * 100`. The male value is finite exactly for a positive height, a waist no smaller than the neck and a non-zero denominator. Plus 450, times the denominator, it gives 495. A waist equal to the neck gives -450. |
| BodyFat.ManualEstimate | client/src/components/BodyFatTab.tsx:45-70 | The manual estimate is finite exactly in the formulas' domain. That domain is a non-zero height and, for men, a waist no smaller than the neck, a positive height, and a non-zero Navy denominator. The estimate lies midway between the Deurenberg and Navy values. |
| BodyFat.DeurenbergGenderGap | client/src/components/BodyFatTab.tsx:58-59 | For the same BMI and age, the male Deurenberg value is 10.8 points below the female one. |
| BodyFat.FemaleEstimateFinite | client/src/components/BodyFatTab.tsx:65-67 | The female estimate is finite for every non-zero height. |
| BodyFat.MaleEqualWaistNeck | client/src/components/BodyFatTab.tsx:61-64 | For a man whose waist equals his neck, `log10(0)` is -Infinity, so the Navy term is -450. |
| BodyFat.Classify | client/src/components/BodyFatTab.tsx:72-86 | Each bracket is exactly a half-open interval between consecutive boundaries of the gender's table: essential below the first, above-average from the last up. |
| BodyFat.ClassifyCountsBoundaries | client/src/components/BodyFatTab.tsx:72-86 | The category's rank is the number of the gender's boundaries the value has reached: 6/14/18/25 for men, 14/21/25/32 otherwise. |
| BodyFat.ReachedMonotone | client/src/components/BodyFatTab.tsx:72-86 | A larger value reaches at least as many boundaries. |
| BodyFat.ClassifyMonotone | client/src/components/BodyFatTab.tsx:72-86 | More body fat never gives a leaner category. |
| BodyFat.BoundaryInHigherBracket | client/src/components/BodyFatTab.tsx:74-84 | Each boundary value belongs to the bracket above it, because the tests are strict `<`. |
| BodyFat.CategoryLabelsDistinct | client/src/components/BodyFatTab.tsx:74-84 | The five labels differ from each other, and only the athletic label changes with gender ("Atlético" or "Atlética"). |
| BodyFatEndpoint.RequestAccepted | server/routes.ts:75 | The guard passes exactly when there are at least two images and none of age, height, weight and gender is `undefined`, `null`, `false`, `0` or `""`. It then hands at least two image parts to the AI. |
| BodyFatEndpoint.OnlyImageCountChecked | server/routes.ts:75-77 | Two back photos pass the guard. A single photo, or a missing image list, does not. |
| BodyFatEndpoint.ImagePartOf | server/routes.ts:146-155 | The payload has no comma and the MIME type has no colon. The payload is undefined exactly when the data has no comma. |
| BodyFatEndpoint.DataUriRoundTrip | server/routes.ts:147-148 | `data:<mime>;base64,<payload>` splits back into exactly that MIME type and payload. |
| BodyFatEndpoint.ImageParts | server/routes.ts:146-155 | One image part per photo, in order. |
| BodyFatEndpoint.ManualGate | server/routes.ts:225-229 | A missing or falsy neck or waist closes the manual gate, and so does a boolean or object one. For numeric fields it opens exactly when both are positive. When open, both parse to positive finite numbers. |
| BodyFatEndpoint.BodyManualEstimate | server/routes.ts:80-81 | The endpoint's manual value is finite only when age, height and weight coerce to finite numbers and lie in the formulas' domain. It is then the midpoint of Deurenberg and Navy. Any gender other than exactly `"male"` uses the female formulas, which are finite for every non-zero height. |
| BodyFatEndpoint.Blend | server/routes.ts:246 | The combination is 60% AI and 40% manual: it lies three fifths of the way from the manual value to the AI value, so between the two, and differs from the manual value whenever they disagree. |
| BodyFatEndpoint.CombinedEstimate | server/routes.ts:223-250 | Unless neck and waist are truthy and parse to positive numbers, the combined estimate is the AI value unchanged. Otherwise it is finite exactly when the manual estimate is, and then it is the 60/40 blend of the two. |
| BodyFatEndpoint.BlendExample | server/routes.ts:246-258 | An AI value of 25 and a manual value of 20 combine to 23.0. |
| BodyFatEndpoint.Accepts | server/routes.ts:49-53 | A candidate that `JSON.parse` rejects is never accepted; one whose body-fat value is `null` is. An accepted candidate parses and has a defined body-fat value. |
| BodyFatEndpoint.Status | server/routes.ts:76-262 | Only an analysis answers 200; every other outcome is a 4xx or 5xx status. |
| BodyFatEndpoint.Analyze | server/routes.ts:71-264 | Status 400 exactly when the guard fails, before any AI call. A failed AI call gives 500. No acceptable object in the cleaned reply gives 502 (bad format); an object that fails validation gives 502 (unprocessable); a valid object gives 200 with its three values and the rounded combination. An analysis is well formed; its combined estimate has one decimal and is within 0.05 of the unrounded combination, and without manual measurements it is the AI value rounded to one decimal. |
| BodyFatEndpoint.NullBodyFatUnprocessable | server/routes.ts:49-53 | A fenced reply whose object has a `null` body-fat value passes the extractor, which refuses only `undefined`, and then fails validation. The answer is the 502 for an unprocessable object, not the one for a bad format. |
| BodyFatEndpoint.AnalyzedComesFromReply | server/routes.ts:167-221 | Every analysis comes from a balanced object found in the cleaned reply, which parses and validates to exactly the returned values. |
| BodyFatTab.CalculateBodyFat | client/src/components/BodyFatTab.tsx:45-70 | 0 while any parsed field is falsy. Otherwise exactly the manual estimate of the parsed form, finite exactly in its domain, and always finite for women. |
| BodyFatTab.RequestImages | client/src/components/BodyFatTab.tsx:132-138 | Frontal and lateral come first. The back photo is appended only when present, so two or three images are sent. |
| BodyFatTab.Json | client/src/components/BodyFatTab.tsx:140-155 | `JSON.stringify` turns NaN into `null` and keeps truthiness. |
| BodyFatTab.AnalyzeBodyFat | client/src/components/BodyFatTab.tsx:101-177 | The missing-fields alert fires exactly when a field is falsy. The manual value is always kept. A request is posted exactly when the frontal and lateral photos are present, and it is the body built from the form. An AI result is stored exactly from a 200 reply, with its values. Otherwise only the manual value is kept. |
| BodyFatTab.NoPhotosNoRequest | client/src/components/BodyFatTab.tsx:119-126 | Without both photos nothing is posted, and the manual value is shown. |
| BodyFatTab.FallsBackToManual | client/src/components/BodyFatTab.tsx:158-173 | A thrown fetch or a non-ok reply falls back to the manual value alone. |
| BodyFatTab.ShowsAnalysis | client/src/components/BodyFatTab.tsx:144-168 | A 200 reply to the posted body is stored as it came: AI value, combined estimate and confidence, beside the tab's own manual value. |
| BodyFatTab.ClientRequestGuard | client/src/components/BodyFatTab.tsx:140-155 | The endpoint accepts the tab's request exactly when the `parseInt` age and height, the weight and the gender are truthy. |
| BodyFatTab.ServerManualMatchesClient | client/src/components/BodyFatTab.tsx:45-70 | When `parseInt` and `parseFloat` agree on age and height and neck and waist are positive, the endpoint's manual value equals the tab's own. |
| BodyFatTab.DisplayValue | client/src/components/BodyFatTab.tsx:179 | The displayed value is the combined estimate when it is truthy, else the manual value when that is truthy, else 0. |
| BodyFatTab.MethodLabel | client/src/components/BodyFatTab.tsx:199-201 | "IA + Manual" exactly for a truthy combined value, "Manual" exactly for a truthy manual value without one, and "--" exactly when the displayed value is 0. |
| BodyFatTab.LabelMatchesDisplay | client/src/components/BodyFatTab.tsx:179-201 | The method card names the value on the percentage card: "IA + Manual" for the combined estimate, "Manual" for the manual value, "--" for 0. |
| BodyFatTab.CombinedWinsWhenPresent | client/src/components/BodyFatTab.tsx:163-201 | A truthy combined value comes only from an AI reply and makes the method read "IA + Manual". |
| BodyFatTab.Summarize | client/src/components/BodyFatTab.tsx:186-198 | The percentage and category cards show only for a positive value. The percentage is within 0.05 of the value. The category is the bracket of the displayed value for the form's gender, and the variant is that category's. |
| BodyFatTab.NegativeManualHidden | client/src/components/BodyFatTab.tsx:188-201 | A negative manual value shows "Manual" as the method but "--" as the percentage. |
| Profile.ActivityMultiplier | client/src/components/ProfileTab.tsx:23-29 | Multipliers lie between 1.2 and 1.9, and an unknown level counts as sedentary (1.2). |
| Profile.MultipliersIncrease | client/src/components/ProfileTab.tsx:23-29 | A more active level has a strictly larger multiplier. |
| Profile.GoalAdjustment | client/src/components/ProfileTab.tsx:47-53 | Adjustments lie within ±500. Only the two bulk goals are positive, and an unknown goal counts as maintenance (0). |
| Profile.AdjustmentsIncrease | client/src/components/ProfileTab.tsx:47-53 | The goals are ordered by adjustment: aggressive cut < cut < maintain < lean bulk < aggressive bulk. |
| Profile.MifflinStJeor | client/src/components/ProfileTab.tsx:120-125 | Men: `10 w + 6.25 h - 5 a + 5`; anyone else 166 kcal less. |
| Profile.Bmr | client/src/components/ProfileTab.tsx:113-126 | BMR is 0 while age, height, weight or gender is empty. Otherwise it is Mifflin-St Jeor on the parsed values, NaN when one does not parse. |
| Profile.MifflinStJeorShape | client/src/components/ProfileTab.tsx:121-125 | Men's BMR is 166 kcal above women's, each kilogram adds 10, and each year lowers it. |
| Profile.Tdee | client/src/components/ProfileTab.tsx:128-132 | TDEE is BMR times the activity multiplier, NaN exactly when BMR is. |
| Profile.DailyGoal | client/src/components/ProfileTab.tsx:134-138 | The daily goal exceeds TDEE by exactly the goal's adjustment. |
| Profile.DailyGoalFollowsGoal | client/src/components/ProfileTab.tsx:134-138 | For the same body, a goal later in the cut-to-bulk order gives a larger daily goal. |
| Profile.TdeeFollowsActivity | client/src/components/ProfileTab.tsx:128-132 | A more active level never lowers TDEE for a non-negative BMR. |
| Profile.BodyMassIndex | client/src/components/ProfileTab.tsx:140-145 | BMI is 0 while height or weight is empty. Otherwise it is finite exactly for parseable values with a non-zero height, and it times the squared height gives the weight. |
| Profile.Categorize | client/src/components/ProfileTab.tsx:147-152 | Underweight exactly below 18.5, normal exactly in [18.5, 25), overweight exactly in [25, 30), obese exactly from 30 up; NaN falls through every test into obesity. |
| Profile.BmiCardVariant | client/src/components/ProfileTab.tsx:147-151 | The BMI card is a warning on both sides of the normal range, a success exactly inside [18.5, 25), and destructive exactly from 30 up or for NaN. |
| Profile.CategorizeMonotone | client/src/components/ProfileTab.tsx:147-152 | A higher BMI never falls into a lower bracket. |
| Profile.EmptyFormUnderweight | client/src/components/ProfileTab.tsx:140-152 | An empty height gives BMI 0, which reads as underweight. |
| Profile.SaveProfile | client/src/components/ProfileTab.tsx:154-164 | Nothing is posted while age, height or weight is empty. The payload (lines 88-95) carries `parseInt` age and height, `parseFloat` weight, and the text fields unchanged. |
| Profile.SaveWithoutGender | client/src/components/ProfileTab.tsx:113-164 | Saving needs no gender, but BMR does: a saved profile with an empty gender shows BMR 0 and a goal equal to the adjustment. |
| Tally.Sum | client/src/components/CaloriesTab.tsx:70 | `reduce` from 0 gives 0 for an empty list and the single amount for a one-element list. |
| Tally.SumAppend | client/src/components/CaloriesTab.tsx:70 | The sum over a concatenation is the sum of the parts. |
| Tally.SumNonNegative | client/src/components/WorkoutsTab.tsx:131 | A sum of non-negative amounts is non-negative. |
| Tally.Count | client/src/components/WorkoutsTab.tsx:133 | `filter(p).length` is at most the length. It is 0 when nothing matches and the length when everything does. |
| Tally.CountAppend | client/src/components/WorkoutsTab.tsx:133 | The count over a concatenation is the sum of the parts' counts. |
| Calories.TotalCalories | client/src/components/CaloriesTab.tsx:70 | An empty log totals 0, and a one-entry log totals that entry's calories. |
| Calories.TotalNonNegative | client/src/components/CaloriesTab.tsx:70 | Entries with non-negative calories give a non-negative total. |
| Calories.TotalAfterLogging | client/src/components/CaloriesTab.tsx:70 | One more entry raises the total by exactly its calories, and an empty log totals 0. |
| Calories.Remaining | client/src/components/CaloriesTab.tsx:157 | Remaining is never negative and is 0 exactly when the total reaches 2200. Up to 2200, total plus remaining is exactly 2200. |
| Calories.Progress | client/src/components/CaloriesTab.tsx:71-72 | Progress is the total as a percentage of 2200 (progress × 22 = total). |
| Calories.ProgressVariant | client/src/components/CaloriesTab.tsx:153 | Destructive exactly above 110%, a warning exactly in (90%, 110%], success exactly up to 90%. |
| Calories.VariantThresholds | client/src/components/CaloriesTab.tsx:153 | The card is destructive above 2420 kcal, a warning above 1980 kcal, and success otherwise. |
| Calories.GoalReached | client/src/components/CaloriesTab.tsx:153-157 | Exactly 2200 kcal leaves nothing remaining and shows a warning. |
| Calories.ScaledMacro | client/src/components/CaloriesTab.tsx:123-125 | A macronutrient is sent exactly when it is present and non-zero, scaled by the portion multiplier. |
| Calories.AddFood | client/src/components/CaloriesTab.tsx:114-130 | Nothing is posted without a selected food and a portion. The name carries the portion. Calories are the integer within half a unit of the scaled calories, as `Math.round` gives, and NaN exactly when the multiplier is. Macronutrients are scaled by the same multiplier. |
| Calories.StandardPortion | client/src/components/CaloriesTab.tsx:114-130 | Keeping the standard portion logs exactly the food's calories and protein. |
| Calories.ZeroPortionFood | client/src/components/CaloriesTab.tsx:116 | A food with a 0 g standard portion yields non-finite calories. |
| Workouts.AddWorkout | client/src/components/WorkoutsTab.tsx:109-125 | Nothing is posted without a selected exercise and a duration. The exercise's fields are copied. Calories are the integer within half a unit of the rate times the `parseInt` minutes, as `Math.round` gives, and NaN exactly when the duration does not parse. |
| Workouts.TotalBurned | client/src/components/WorkoutsTab.tsx:131 | An empty day burns 0, and a one-workout day burns that workout's calories. |
| Workouts.TotalDuration | client/src/components/WorkoutsTab.tsx:132 | An empty day lasts 0 minutes, and a one-workout day lasts that workout's minutes. |
| Workouts.TotalsAfterLogging | client/src/components/WorkoutsTab.tsx:131-132 | One more workout adds exactly its calories and minutes, and an empty day totals 0 of both. |
| Workouts.IntenseCount | client/src/components/WorkoutsTab.tsx:133 | There are never more intense workouts than workouts. |
| Workouts.IntenseCountAfterLogging | client/src/components/WorkoutsTab.tsx:133 | Logging a workout raises the intense count by one exactly when it is intense; an empty day has none. |
| Workouts.HighIntensityShare | client/src/components/WorkoutsTab.tsx:134 | The share is in [0, 100] and is 0 for an empty day. Share × count of workouts = 100 × count of intense ones. |
| Workouts.ProductSign | client/src/components/WorkoutsTab.tsx:169 | Multiplying by a positive count keeps the sign that decides the variant. |
| Workouts.ShareVariant | client/src/components/WorkoutsTab.tsx:169 | The intensity card is a success exactly for a share above 50, and default otherwise. |
| Workouts.ShareSuccessIff | client/src/components/WorkoutsTab.tsx:133-169 | The card is a success exactly when more than half of the day's workouts are intense. |
| Workouts.DisplayedShare | client/src/components/WorkoutsTab.tsx:166 | The displayed percentage is an integer in [0, 100], within half a unit of the share. |
| Workouts.RoundedShareHidesThreshold | client/src/components/WorkoutsTab.tsx:166-169 | A share just above 50 displays "50" on a success card: the variant uses the unrounded share. |
| Search.Trigger | client/src/components/CaloriesTab.tsx:96-106 | Two or more UTF-16 code units search for the text. An empty box reloads the whole list. A single code unit waits. |
| Search.ShowResults | client/src/components/WorkoutsTab.tsx:136 | Results show exactly when a query is being sent and nothing is selected. |
| Search.QueryIsNonEmpty | client/src/components/WorkoutsTab.tsx:92-102 | A query always carries a non-empty filter. |
| Search.AstralCharacterSearches | client/src/components/CaloriesTab.tsx:98 | One character outside the Basic Multilingual Plane counts as two code units and starts a search. |
| Search.ShortQueries | client/src/components/CaloriesTab.tsx:98-100 | One ordinary character waits; two search. |

## Left out

- **IEEE-754 arithmetic.** Finite numbers are exact reals. Binary rounding
  (for example `toFixed(1)` on 1.05) and overflow to Infinity are not
  modelled.
- **Infinities.** NaN, +Infinity and -Infinity are one falsy non-finite
  value. In JavaScript `parseFloat("Infinity")` is truthy, and a BMI of
  -Infinity (negative weight, zero height) reads as underweight. Here the
  first is falsy and the second reads as obese.
- **Foreign functions.** `JSON.parse`, `parseFloat`, `parseInt`, the string
  coercion, `Math.log10` and the AI model are parameters. Their own behaviour
  is not specified. `parseJson` stands for `JSON.parse` followed by reading
  the three fields. Arrays and other objects are one `Object` value.
- JsValues.ParseFloat: gives NaN for every array. In JavaScript an array is
  first turned into its comma-joined text, so `parseFloat([38])` is 38 and
  a body sending `neck: [38]` opens the manual leg. Modelling that needs the
  number-to-text conversion of each element, which is not modelled.
- JsValues.ToNumber: gives NaN for every array. In JavaScript `Number([5])`
  is 5 and `Number([])` is 0, through the same comma-joined text.
- **The prompt** (server/routes.ts:84-143) is left out. It is text for the AI,
  and the AI's answer is a parameter. The model name and the API key
  (server/routes.ts:9-12, 158) are left out for the same reason.
- **Other 500 paths.** A photo whose `data` is not a string makes the
  endpoint throw and answer 500; here `Photo.data` is always a string.
  Exceptions raised outside the AI call are not modelled.
- **Logging.** `console.log` and `console.error` calls are left out.
- **Client plumbing.**
  - React state, alerts, the loading flag, and `FileReader` photo upload are
    left out.
  - The 300 ms debounce timer and its cancellation are left out. `Trigger`
    describes the action taken once typing pauses.
  - The list fetches, toasts, delete mutations and query invalidation are
    left out.
- **Profile loading.** Filling the profile form from the saved profile
  (client/src/components/ProfileTab.tsx:66-82) is left out.
- **Lookup keys.** A lookup with an `Object.prototype` key such as
  `"toString"` returns a function in JavaScript, not the fallback. The lookups
  here only know the listed keys.
- **The rest of the repository is not part of this model:** the other CRUD
  routes, storage, the database seed, the schema's validation of posted
  entries, and the server's own `bmi.toFixed(1)` inside the prompt.
- **Category labels.** The BMI category labels ("Abaixo do peso", ...) are
  the constructors of `Profile.BmiCategory`, not strings.
- **Log argument of the Navy formula.** `log10` receives the waist-neck
  difference and the height unchecked. The model decides NaN for
  non-positive arguments itself and leaves finite logarithms to the
  parameter.
- BodyFatEndpoint.ImagePartOf: does not state that the MIME type has no
  semicolon. The exact split of a well-formed data URI is stated by
  `DataUriRoundTrip` instead.

=== FILE: ai_validation.dfy ===
/** Checking and defaulting the three fields of the object extracted from the
    AI reply (server/routes.ts:186-213). Present fields are checked strictly;
    absent optional fields get defaults. */
module AiValidation {
  import opened Outcomes
  import opened JsNumbers
  import opened JsValues
  import opened JsStrings

  /** The properties of the parsed reply the validator reads. */
  datatype AiObject = AiObject(bodyFatPercentage: Value, confidence: Value, reasoning: Value)

  /** A validated AI analysis. */
  datatype Analysis = Analysis(bodyFatPercentage: real, confidence: real, reasoning: string)

  datatype ValidationError = InvalidBodyFat | InvalidConfidence | InvalidReasoning

  const DefaultConfidence: real := 0.8

  /** The reasoning given when the reply has none: one sentence, written as
      three literals because the verifier does not read the characters of a
      single literal this long, and the proof needs the first one. */
  const FallbackReasoning: string := "Análise baseada em " + "múltiplos ângulos e " + "landmarks anatômicos"

  /** What every validated analysis satisfies. */
  predicate WellFormed(a: Analysis) {
    && 0.0 <= a.bodyFatPercentage <= 100.0
    && 0.0 <= a.confidence <= 1.0
    && Trim(a.reasoning) != ""
  }

  /** `typeof v === 'number'` and within [0, 100]. */
  predicate BodyFatOk(v: Value) {
    v.Number? && 0.0 <= v.x <= 100.0
  }

  /** The confidence as the source computes it: `parseFloat` for a string,
      the value itself otherwise; `Number.isFinite` holds only of finite numbers. */
  function ConfidenceNumber(v: Value, parseFloat: string -> Num): Num {
    match v
    case Text(s) => parseFloat(s)
    case Number(x) => Finite(x)
    case _ => NonFinite
  }

  /** An absent confidence, or one whose number is finite and within [0, 1]. */
  predicate ConfidenceOk(v: Value, parseFloat: string -> Num) {
    v == Undefined ||
    (var c := ConfidenceNumber(v, parseFloat); c.Finite? && 0.0 <= c.value <= 1.0)
  }

  /** An absent reasoning, or a string that is not blank after trimming. */
  predicate ReasoningOk(v: Value) {
    v == Undefined || (v.Text? && Trim(v.s) != "")
  }

  /** The validator: body fat first, then confidence, then reasoning. */
  function Validate(o: AiObject, parseFloat: string -> Num): (r: Result<Analysis, ValidationError>)
    ensures r.Success? <==> BodyFatOk(o.bodyFatPercentage) && ConfidenceOk(o.confidence, parseFloat) && ReasoningOk(o.reasoning)
    ensures r == Failure(InvalidBodyFat) <==> !BodyFatOk(o.bodyFatPercentage)
    ensures r == Failure(InvalidConfidence) <==> BodyFatOk(o.bodyFatPercentage) && !ConfidenceOk(o.confidence, parseFloat)
    ensures r.Success? ==> WellFormed(r.value)
    ensures r.Success? ==> o.bodyFatPercentage == Number(r.value.bodyFatPercentage)
    ensures r.Success? && o.confidence == Undefined ==> r.value.confidence == DefaultConfidence
    ensures r.Success? && o.confidence != Undefined ==> ConfidenceNumber(o.confidence, parseFloat) == Finite(r.value.confidence)
    ensures r.Success? ==> (if o.reasoning == Undefined then r.value.reasoning == FallbackReasoning
                            else o.reasoning == Text(r.value.reasoning))
  {
    if !BodyFatOk(o.bodyFatPercentage) then Failure(InvalidBodyFat)
    else if !ConfidenceOk(o.confidence, parseFloat) then Failure(InvalidConfidence)
    else if !ReasoningOk(o.reasoning) then Failure(InvalidReasoning)
    else
      var confidence := if o.confidence == Undefined then DefaultConfidence
                        else ConfidenceNumber(o.confidence, parseFloat).value;
      var reasoning := if o.reasoning == Undefined then FallbackReasoning else o.reasoning.s;
      FallbackNotBlank();
      Success(Analysis(o.bodyFatPercentage.x, confidence, reasoning))
  }

  lemma FallbackNotBlank()
    ensures Trim(FallbackReasoning) != ""
  {
    assert FallbackReasoning[0] == 'A';
    assert !AllSpace(FallbackReasoning);
  }

  /** An object with only a valid body fat gets both defaults. */
  lemma DefaultsWhenAbsent(bodyFat: real, parseFloat: string -> Num)
    requires 0.0 <= bodyFat <= 100.0
    ensures Validate(AiObject(Number(bodyFat), Undefined, Undefined), parseFloat)
         == Success(Analysis(bodyFat, DefaultConfidence, FallbackReasoning))
  {
  }

  /** A body fat of 150 is rejected, whatever follows. */
  lemma RejectsBodyFatAboveHundred(o: AiObject, parseFloat: string -> Num)
    requires o.bodyFatPercentage == Number(150.0)
    ensures Validate(o, parseFloat) == Failure(InvalidBodyFat)
  {
  }

  /** A confidence of 1.5 is rejected, even a well-formed body fat cannot save it. */
  lemma RejectsConfidenceAboveOne(bodyFat: real, reasoning: Value, parseFloat: string -> Num)
    requires 0.0 <= bodyFat <= 100.0
    ensures Validate(AiObject(Number(bodyFat), Number(1.5), reasoning), parseFloat) == Failure(InvalidConfidence)
  {
  }

  /** Present but unusable is an error where absent is a default: `null` and
      `false` are not `undefined`. */
  lemma PresentNullIsNotAbsent(bodyFat: real, parseFloat: string -> Num)
    requires 0.0 <= bodyFat <= 100.0
    ensures Validate(AiObject(Number(bodyFat), Null, Undefined), parseFloat) == Failure(InvalidConfidence)
    ensures Validate(AiObject(Number(bodyFat), Undefined, Bool(false)), parseFloat) == Failure(InvalidReasoning)
    ensures Validate(AiObject(Number(bodyFat), Undefined, Text(" \n")), parseFloat) == Failure(InvalidReasoning)
  {
    assert AllSpace(" \n");
  }
}

=== FILE: balanced_json.dfy ===
/** The balanced-JSON extractor of the body-fat endpoint (`extractBalancedJSON`
    in server/routes.ts): find the first `{...}` object in free text, counting
    braces outside quoted strings and honouring backslash escapes, whose text the
    caller accepts. A rejected candidate is skipped whole. */
module BalancedJson {
  import opened Outcomes

  /** The state of the brace walk: brace depth outside strings, whether the walk
      is inside a quoted string, and whether the next character is escaped. */
  datatype Scan = Scan(depth: int, inString: bool, escapeNext: bool)

  /** The state a walk starts in at each candidate `{`. */
  const Fresh := Scan(0, false, false)

  /** Reading one character. A backslash escapes the next character wherever it
      occurs; a quote toggles string mode; braces count only outside strings. */
  function Step(st: Scan, c: char): Scan {
    if st.escapeNext then st.(escapeNext := false)
    else if c == '\\' then st.(escapeNext := true)
    else if c == '"' then st.(inString := !st.inString)
    else if st.inString then st
    else if c == '{' then st.(depth := st.depth + 1)
    else if c == '}' then st.(depth := st.depth - 1)
    else st
  }

  /** The state after reading all of `w`, starting in `st`. */
  function WalkFrom(st: Scan, w: string): Scan
    decreases |w|
  {
    if |w| == 0 then st else Step(WalkFrom(st, w[..|w| - 1]), w[|w| - 1])
  }

  /** The walk of `w` from a fresh state. */
  function Walk(w: string): Scan {
    WalkFrom(Fresh, w)
  }

  /** Reading `c` in `st` is a counted `}` that brings the depth back to zero:
      the moment the walk stops and tests its candidate. */
  predicate Closes(st: Scan, c: char) {
    !st.escapeNext && !st.inString && c == '}' && st.depth == 1
  }

  /** A balanced object text: its out-of-string depth is positive after every
      non-empty proper prefix and zero after the whole text. */
  ghost predicate Balanced(c: string) {
    && |c| >= 2
    && (forall k :: 0 < k < |c| ==> Walk(c[..k]).depth > 0)
    && Walk(c).depth == 0
  }

  /** `text.indexOf('{', from)` */
  function IndexOfBrace(text: string, from: nat): (r: Option<nat>)
    ensures r.Some? ==> from <= r.value < |text| && text[r.value] == '{'
    ensures r.Some? ==> forall j :: from <= j < r.value ==> text[j] != '{'
    ensures r.None? ==> forall j :: from <= j < |text| ==> text[j] != '{'
    decreases |text| - from
  {
    if from >= |text| then None
    else if text[from] == '{' then Some(from)
    else IndexOfBrace(text, from + 1)
  }

  /** Continue the walk at position `i` in state `st`; the index just past the
      closing brace, or None when the text ends first. */
  function CloseFrom(text: string, i: nat, st: Scan): (r: Option<nat>)
    requires i <= |text|
    ensures r.Some? ==> i < r.value <= |text| && text[r.value - 1] == '}'
    decreases |text| - i
  {
    if i == |text| then None
    else if Closes(st, text[i]) then Some(i + 1)
    else CloseFrom(text, i + 1, Step(st, text[i]))
  }

  /** A candidate: `text[start..end]`, from a `{` to its closing `}`. */
  datatype Span = Span(start: nat, end: nat)

  /** The scan from search index `from`: take the next `{`, walk to its closing
      brace, return the candidate if `accepts` holds of it and otherwise resume
      just after it. None when no `{` remains or a walk reaches the end of text. */
  function FindFrom(text: string, accepts: string -> bool, from: nat): (r: Option<Span>)
    ensures r.Some? ==> from <= r.value.start < r.value.end <= |text|
    ensures r.Some? ==> text[r.value.start] == '{' && text[r.value.end - 1] == '}'
    ensures r.Some? ==> accepts(text[r.value.start..r.value.end])
    decreases |text| - from
  {
    match IndexOfBrace(text, from)
    case None => None
    case Some(s) =>
      match CloseFrom(text, s, Fresh)
      case None => None
      case Some(e) =>
        if accepts(text[s..e]) then Some(Span(s, e)) else FindFrom(text, accepts, e)
  }

  /** The extractor's result: the text of the first accepted candidate. */
  function Extract(text: string, accepts: string -> bool): (r: Option<string>)
    ensures r.Some? ==> accepts(r.value) && Balanced(r.value)
    ensures r.Some? ==> r.value[0] == '{' && r.value[|r.value| - 1] == '}'
    ensures r.Some? ==> exists s, e :: 0 <= s < e <= |text| && r.value == text[s..e]
    ensures (forall k :: 0 <= k < |text| ==> text[k] != '{') ==> r.None?
    ensures r.None? <==> var cs := Candidates(text, 0);
      forall i :: 0 <= i < |cs| ==> !accepts(text[cs[i].start..cs[i].end])
  {
    ScanFindsIffAccepted(text, accepts);
    match FindFrom(text, accepts, 0)
    case None => None
    case Some(sp) =>
      FoundIsBalanced(text, accepts, 0);
      Some(text[sp.start..sp.end])
  }

  /** `extractBalancedJSON`: the outer loop of the source. Each round looks for
      the next `{`, walks it to its closing brace and tests the candidate; a
      rejected candidate moves the search index just past its `}`. */
  method ExtractBalancedJson(text: string, accepts: string -> bool) returns (r: Option<string>)
    ensures r == Extract(text, accepts)
  {
    var searchIdx := 0;
    while true
      invariant searchIdx <= |text|
      invariant FindFrom(text, accepts, searchIdx) == FindFrom(text, accepts, 0)
      decreases |text| - searchIdx
    {
      var found := IndexOfBrace(text, searchIdx);
      if found.None? {
        return None;
      }
      var startIdx := found.value;
      var closeEnd := WalkCandidate(text, startIdx);
      if closeEnd.None? {
        // the walk ran off the end with an open brace
        return None;
      }
      var candidate := text[startIdx..closeEnd.value];
      if accepts(candidate) {
        return Some(candidate);
      }
      searchIdx := closeEnd.value;
    }
  }

  /** The inner loop of the source: walk from the `{` at `startIdx` until the
      depth returns to zero; the index just past that `}`, or None when the text
      ends with the brace still open. */
  method WalkCandidate(text: string, startIdx: nat) returns (closeEnd: Option<nat>)
    requires startIdx < |text| && text[startIdx] == '{'
    ensures closeEnd == CloseFrom(text, startIdx, Fresh)
  {
    var braceCount := 0;
    var inString := false;
    var escapeNext := false;
    var i := startIdx;
    while i < |text|
      invariant startIdx <= i <= |text|
      invariant i == startIdx ==> Scan(braceCount, inString, escapeNext) == Fresh
      invariant i > startIdx ==> braceCount > 0
      invariant CloseFrom(text, startIdx, Fresh) == CloseFrom(text, i, Scan(braceCount, inString, escapeNext))
      decreases |text| - i
    {
      var c := text[i];
      if escapeNext {
        escapeNext := false;
      } else if c == '\\' {
        escapeNext := true;
      } else if c == '"' {
        inString := !inString;
      } else if !inString {
        if c == '{' {
          braceCount := braceCount + 1;
        }
        if c == '}' {
          braceCount := braceCount - 1;
          if braceCount == 0 {
            return Some(i + 1);
          }
        }
      }
      i := i + 1;
    }
    // the source's final `braceCount !== 0` test always holds here
    assert braceCount != 0;
    return None;
  }

  /** Reading a closing walk: if every prefix read so far kept the depth
      positive, the candidate the walk closes is balanced. */
  lemma {:induction false} CloseFromBalanced(text: string, s: nat, i: nat, e: nat)
    requires s < i <= |text|
    requires forall k :: s < k <= i ==> Walk(text[s..k]).depth > 0
    requires CloseFrom(text, i, Walk(text[s..i])) == Some(e)
    ensures forall k :: s < k < e ==> Walk(text[s..k]).depth > 0
    ensures Walk(text[s..e]).depth == 0
    decreases |text| - i
  {
    var st := Walk(text[s..i]);
    assert text[s..i + 1][..i - s] == text[s..i];
    assert Walk(text[s..i + 1]) == Step(st, text[i]);
    if Closes(st, text[i]) {
      assert e == i + 1;
    } else {
      assert st.depth > 0;
      CloseFromBalanced(text, s, i + 1, e);
    }
  }

  /** The walk begun at a `{` delimits a balanced candidate. */
  lemma WalkFromBraceBalanced(text: string, s: nat, e: nat)
    requires s < |text| && text[s] == '{'
    requires CloseFrom(text, s, Fresh) == Some(e)
    ensures Balanced(text[s..e])
  {
    var w := text[s..s + 1];
    assert w[..0] == [] && w[0] == '{';
    assert WalkFrom(Fresh, w[..0]) == Fresh;
    assert Walk(w) == Scan(1, false, false);
    assert CloseFrom(text, s + 1, Walk(text[s..s + 1])) == Some(e);
    CloseFromBalanced(text, s, s + 1, e);
    var c := text[s..e];
    forall k | 0 < k < |c|
      ensures Walk(c[..k]).depth > 0
    {
      assert c[..k] == text[s..s + k];
    }
  }

  /** Every candidate the scan returns is balanced. */
  lemma {:induction false} FoundIsBalanced(text: string, accepts: string -> bool, from: nat)
    requires FindFrom(text, accepts, from).Some?
    ensures var sp := FindFrom(text, accepts, from).value; Balanced(text[sp.start..sp.end])
    decreases |text| - from
  {
    var s := IndexOfBrace(text, from).value;
    var e := CloseFrom(text, s, Fresh).value;
    if accepts(text[s..e]) {
      WalkFromBraceBalanced(text, s, e);
    } else {
      FoundIsBalanced(text, accepts, e);
    }
  }

  /** No `{` in `text[lo..hi]`. */
  ghost predicate NoBraceIn(text: string, lo: nat, hi: nat) {
    forall k :: lo <= k < hi && k < |text| ==> text[k] != '{'
  }

  /** The scan resumed at `at` finds no candidate: no `{` remains, or the next
      one never closes. */
  predicate ChainStops(text: string, at: nat) {
    match IndexOfBrace(text, at)
    case None => true
    case Some(s) => CloseFrom(text, s, Fresh).None?
  }

  /** Where the skip chain from `from` with candidates `cs` stops: just past
      its last candidate. */
  function ChainEnd(cs: seq<Span>, from: nat): nat {
    if |cs| == 0 then from else cs[|cs| - 1].end
  }

  /** No `{` is passed over between `from` and the first candidate, nor between
      two consecutive candidates. */
  ghost predicate NoBraceSkipped(text: string, from: nat, cs: seq<Span>) {
    && (|cs| > 0 ==> NoBraceIn(text, from, cs[0].start))
    && (forall i :: 0 <= i < |cs| - 1 ==> NoBraceIn(text, cs[i].end, cs[i + 1].start))
  }

  /** The skip chain: every candidate the scan visits when it accepts nothing,
      in order, each one balanced. */
  function Candidates(text: string, from: nat): (cs: seq<Span>)
    ensures forall i :: 0 <= i < |cs| ==> from <= cs[i].start < cs[i].end <= |text|
    ensures forall i :: 0 <= i < |cs| ==> text[cs[i].start] == '{' && text[cs[i].end - 1] == '}'
    ensures forall i :: 0 <= i < |cs| ==> Balanced(text[cs[i].start..cs[i].end])
    ensures forall i, j :: 0 <= i < j < |cs| ==> cs[i].end <= cs[j].start
    decreases |text| - from
  {
    match IndexOfBrace(text, from)
    case None => []
    case Some(s) =>
      match CloseFrom(text, s, Fresh)
      case None => []
      case Some(e) =>
        WalkFromBraceBalanced(text, s, e);
        [Span(s, e)] + Candidates(text, e)
  }

  /** The skip chain passes over no `{` outside its candidates, and stops
      because no `{` remains after it or because the next `{` never closes. */
  lemma {:induction false} CandidatesSkipNothing(text: string, from: nat)
    ensures NoBraceSkipped(text, from, Candidates(text, from))
    ensures ChainStops(text, ChainEnd(Candidates(text, from), from))
    decreases |text| - from
  {
    match IndexOfBrace(text, from)
    case None =>
    case Some(s) =>
      match CloseFrom(text, s, Fresh)
      case None =>
      case Some(e) =>
        var rest := Candidates(text, e);
        var cs := Candidates(text, from);
        assert cs == [Span(s, e)] + rest;
        CandidatesSkipNothing(text, e);
        assert ChainEnd(cs, from) == ChainEnd(rest, e);
        assert forall i :: 1 <= i < |cs| ==> cs[i] == rest[i - 1];
  }

  ghost predicate WithinText(text: string, cs: seq<Span>) {
    forall i :: 0 <= i < |cs| ==> cs[i].start <= cs[i].end <= |text|
  }

  /** The first span of `cs` whose text `accepts` holds of: None exactly when
      no span is accepted. */
  function FirstAccepted(text: string, cs: seq<Span>, accepts: string -> bool): (r: Option<Span>)
    requires WithinText(text, cs)
    ensures r.None? <==> forall i :: 0 <= i < |cs| ==> !accepts(text[cs[i].start..cs[i].end])
    ensures r.Some? ==> r.value in cs && accepts(text[r.value.start..r.value.end])
    decreases |cs|
  {
    if |cs| == 0 then None
    else if accepts(text[cs[0].start..cs[0].end]) then Some(cs[0])
    else
      var r := FirstAccepted(text, cs[1..], accepts);
      assert forall i :: 1 <= i < |cs| ==> cs[i] == cs[1..][i - 1];
      r
  }

  /** The scan returns exactly the first candidate of its skip chain that is
      accepted, and None when the chain has no accepted candidate. */
  lemma {:induction false} ScanIsFirstAccepted(text: string, accepts: string -> bool, from: nat)
    ensures FindFrom(text, accepts, from) == FirstAccepted(text, Candidates(text, from), accepts)
    decreases |text| - from
  {
    match IndexOfBrace(text, from)
    case None =>
    case Some(s) =>
      match CloseFrom(text, s, Fresh)
      case None =>
      case Some(e) =>
        var cs := Candidates(text, from);
        assert cs == [Span(s, e)] + Candidates(text, e);
        assert cs[1..] == Candidates(text, e);
        if !accepts(text[s..e]) {
          ScanIsFirstAccepted(text, accepts, e);
        }
  }

  /** Spelled out: a returned candidate sits in the chain and every candidate
      before it was rejected. */
  lemma {:induction false} FirstAcceptedIsFirst(text: string, cs: seq<Span>, accepts: string -> bool)
    requires WithinText(text, cs)
    requires FirstAccepted(text, cs, accepts).Some?
    ensures exists n :: (0 <= n < |cs| && cs[n] == FirstAccepted(text, cs, accepts).value
                         && accepts(text[cs[n].start..cs[n].end])
                         && forall m :: 0 <= m < n ==> !accepts(text[cs[m].start..cs[m].end]))
    decreases |cs|
  {
    if accepts(text[cs[0].start..cs[0].end]) {
      assert cs[0] == FirstAccepted(text, cs, accepts).value;
    } else {
      FirstAcceptedIsFirst(text, cs[1..], accepts);
      var n :| 0 <= n < |cs[1..]| && cs[1..][n] == FirstAccepted(text, cs[1..], accepts).value
        && accepts(text[cs[1..][n].start..cs[1..][n].end])
        && forall m :: 0 <= m < n ==> !accepts(text[cs[1..][m].start..cs[1..][m].end]);
      assert cs[n + 1] == FirstAccepted(text, cs, accepts).value;
      forall m | 0 <= m < n + 1
        ensures !accepts(text[cs[m].start..cs[m].end])
      {
        if m > 0 {
          assert cs[m] == cs[1..][m - 1];
        }
      }
    }
  }

  /** Every `{` the skip chain passes is accounted for: it opens a candidate
      or lies inside one, so the braces nested in a rejected candidate are
      never tried on their own. */
  lemma {:induction false} EveryBraceInACandidate(text: string, from: nat, k: nat)
    requires from <= k < ChainEnd(Candidates(text, from), from) && k < |text| && text[k] == '{'
    ensures var cs := Candidates(text, from);
      exists i :: 0 <= i < |cs| && cs[i].start <= k < cs[i].end
    decreases |text| - from
  {
    var cs := Candidates(text, from);
    CandidatesSkipNothing(text, from);
    var s := IndexOfBrace(text, from).value;
    var e := CloseFrom(text, s, Fresh).value;
    var rest := Candidates(text, e);
    assert cs == [Span(s, e)] + rest;
    if k >= e {
      assert ChainEnd(cs, from) == ChainEnd(rest, e);
      EveryBraceInACandidate(text, e, k);
      var i :| 0 <= i < |rest| && rest[i].start <= k < rest[i].end;
      assert cs[i + 1] == rest[i];
    } else {
      assert cs[0].start <= k < cs[0].end;
    }
  }

  /** The scan finds a candidate exactly when one of the skip chain is accepted. */
  lemma ScanFindsIffAccepted(text: string, accepts: string -> bool)
    ensures FindFrom(text, accepts, 0).None? <==> var cs := Candidates(text, 0);
      forall i :: 0 <= i < |cs| ==> !accepts(text[cs[i].start..cs[i].end])
  {
    ScanIsFirstAccepted(text, accepts, 0);
  }

  /** A found object is the text of the first accepted candidate of the skip
      chain: every earlier candidate was rejected. */
  lemma ExtractFindsAcceptedCandidate(text: string, accepts: string -> bool)
    requires Extract(text, accepts).Some?
    ensures var cs := Candidates(text, 0);
      exists n :: && 0 <= n < |cs| && Extract(text, accepts).value == text[cs[n].start..cs[n].end]
                  && forall m :: 0 <= m < n ==> !accepts(text[cs[m].start..cs[m].end])
  {
    var cs := Candidates(text, 0);
    ScanIsFirstAccepted(text, accepts, 0);
    FirstAcceptedIsFirst(text, cs, accepts);
  }

  /** Where a walk begun at the `{` at `s` first comes back to depth zero, there
      it closes: resumed at any earlier point `i`, the scan reports `e`. */
  lemma {:induction false} ClosesWhereDepthReturns(text: string, s: nat, i: nat, e: nat)
    requires s <= i < e <= |text| && s + 2 <= e
    requires forall k :: s < k < e ==> Walk(text[s..k]).depth > 0
    requires Walk(text[s..e]).depth == 0
    ensures CloseFrom(text, i, Walk(text[s..i])) == Some(e)
    decreases e - i
  {
    var st := Walk(text[s..i]);
    assert text[s..i + 1][..i - s] == text[s..i];
    assert Walk(text[s..i + 1]) == Step(st, text[i]);
    if i + 1 == e {
      assert st.depth > 0;
      assert Closes(st, text[i]);
    } else {
      assert Walk(text[s..i + 1]).depth > 0;
      ClosesWhereDepthReturns(text, s, i + 1, e);
    }
  }

  /** A balanced text starts with `{`. */
  lemma BalancedOpens(obj: string)
    requires Balanced(obj)
    ensures obj[0] == '{'
  {
    var w := obj[..1];
    assert w[..0] == [] && w[0] == obj[0];
    assert WalkFrom(Fresh, w[..0]) == Fresh;
    assert Walk(w) == Step(Fresh, obj[0]);
    assert Walk(obj[..1]).depth > 0;
  }

  /** A balanced text ends with the `}` that brings the depth back to zero. */
  lemma BalancedCloses(obj: string)
    requires Balanced(obj)
    ensures obj[|obj| - 1] == '}'
  {
    var init := obj[..|obj| - 1];
    assert obj[..|obj|] == obj;
    assert Walk(init).depth > 0;
    assert Walk(obj) == Step(Walk(init), obj[|obj| - 1]);
  }

  /** Completeness: a balanced, accepted object preceded by no `{` is what the
      extractor returns, whatever follows it. */
  lemma FirstObjectFound(pre: string, obj: string, post: string, accepts: string -> bool)
    requires forall k :: 0 <= k < |pre| ==> pre[k] != '{'
    requires Balanced(obj) && accepts(obj)
    ensures Extract(pre + obj + post, accepts) == Some(obj)
  {
    var text := pre + obj + post;
    var s, e := |pre|, |pre| + |obj|;
    BalancedOpens(obj);
    assert text[s] == '{';
    assert forall k :: 0 <= k < s ==> text[k] == pre[k];
    assert IndexOfBrace(text, 0) == Some(s);
    assert text[s..e] == obj;
    forall k | s < k < e
      ensures Walk(text[s..k]).depth > 0
    {
      assert text[s..k] == obj[..k - s];
    }
    assert text[s..s] == [];
    ClosesWhereDepthReturns(text, s, s, e);
    assert CloseFrom(text, s, Fresh) == Some(e);
  }

  /** Walking `a` then `b` is walking `a + b`. */
  lemma {:induction false} WalkFromAppend(st: Scan, a: string, b: string)
    ensures WalkFrom(st, a + b) == WalkFrom(WalkFrom(st, a), b)
    decreases |b|
  {
    if |b| == 0 {
      assert a + b == a;
    } else {
      WalkFromAppend(st, a, b[..|b| - 1]);
      assert (a + b)[..|a + b| - 1] == a + b[..|b| - 1];
    }
  }

  /** A backslash makes the next character, whatever it is, count for nothing. */
  lemma EscapeHidesNext(st: Scan, c: char)
    requires !st.escapeNext
    ensures WalkFrom(st, ['\\', c]) == st
  {
    assert ['\\', c][..1] == ['\\'];
    assert ['\\'][..0] == [];
  }

  /** A string without quotes or backslashes. */
  predicate PlainText(w: string) {
    forall k :: 0 <= k < |w| ==> w[k] != '"' && w[k] != '\\'
  }

  /** Inside a quoted string, plain text (braces included) changes nothing. */
  lemma {:induction false} QuotedTextIgnored(st: Scan, w: string)
    requires st.inString && !st.escapeNext && PlainText(w)
    ensures WalkFrom(st, w) == st
    decreases |w|
  {
    if |w| > 0 {
      QuotedTextIgnored(st, w[..|w| - 1]);
    }
  }

  /** Outside strings, plain text moves the depth by its `{` count minus its `}` count. */
  lemma {:induction false} PlainTextDepth(st: Scan, w: string)
    requires !st.inString && !st.escapeNext && PlainText(w)
    ensures WalkFrom(st, w) == st.(depth := st.depth + multiset(w)['{'] - multiset(w)['}'])
    decreases |w|
  {
    if |w| > 0 {
      var init := w[..|w| - 1];
      PlainTextDepth(st, init);
      assert w == init + [w[|w| - 1]];
      assert multiset(w) == multiset(init) + multiset{w[|w| - 1]};
    }
  }

  /** A quoted string of plain text, braces included, leaves the walk where it was. */
  lemma QuotedBracesIgnored(st: Scan, w: string)
    requires !st.inString && !st.escapeNext && PlainText(w)
    ensures WalkFrom(st, ['"'] + w + ['"']) == st
  {
    var open := st.(inString := true);
    assert ['"'][..0] == [];
    assert WalkFrom(st, ['"']) == open;
    WalkFromAppend(st, ['"'], w);
    QuotedTextIgnored(open, w);
    WalkFromAppend(st, ['"'] + w, ['"']);
    assert ['"'][..0] == [];
  }

  /** A rejected candidate is skipped whole: with `{x}` rejected, the scan of
      `{x}{y}` returns the second object. */
  lemma SkipsRejectedCandidate()
    ensures Extract("{x}{y}", (c: string) => c == "{y}") == Some("{y}")
  {
    var text := "{x}{y}";
    var acc := (c: string) => c == "{y}";
    assert IndexOfBrace(text, 0) == Some(0);
    assert CloseFrom(text, 0, Fresh) == Some(3);
    assert text[0..3] == "{x}";
    assert IndexOfBrace(text, 3) == Some(3);
    assert CloseFrom(text, 3, Fresh) == Some(6);
    assert text[3..6] == "{y}";
    assert FindFrom(text, acc, 3) == Some(Span(3, 6));
    assert FindFrom(text, acc, 0) == Some(Span(3, 6));
  }

  /** A first `{` whose walk never returns to depth zero ends the search with
      None, whatever accepted objects sit inside or after it. */
  lemma UnclosedBraceEndsSearch(text: string, accepts: string -> bool, s: nat)
    requires s < |text| && text[s] == '{'
    requires forall k :: 0 <= k < s ==> text[k] != '{'
    requires CloseFrom(text, s, Fresh).None?
    ensures Extract(text, accepts).None?
  {
    assert IndexOfBrace(text, 0) == Some(s);
  }
}

=== FILE: body_fat.dfy ===
/** The manual body-fat estimate (the mean of the Deurenberg and US Navy
    formulas) and its gender-specific classification. The same estimate is
    computed by the body-fat tab (client/src/components/BodyFatTab.tsx) and by
    the analysis endpoint (server/routes.ts). */
module BodyFat {
  import opened JsNumbers
  import opened Cards

  /** Anthropometric input: age in years, height and circumferences in cm, weight in kg. */
  datatype Anthropometrics = Anthropometrics(
    age: real, height: real, weight: real, male: bool, neck: real, waist: real)

  /** `weight / ((height / 100) * (height / 100))`: not finite for a zero height. */
  function Bmi(weight: real, height: real): (r: Num)
    ensures r.Finite? <==> height != 0.0
    ensures r.Finite? ==> r.value * ((height / 100.0) * (height / 100.0)) == weight
  {
    if height == 0.0 then NonFinite
    else
      var h := height / 100.0;
      SquarePositive(h);
      assert h * h != 0.0;
      Finite(weight / (h * h))
  }

  lemma SquarePositive(h: real)
    requires h != 0.0
    ensures h * h > 0.0
  {
    if h < 0.0 {
      assert h * h == (-h) * (-h);
    }
  }

  /** Deurenberg: `1.20 * bmi + 0.23 * age - 10.8 * genderFactor - 5.4`, genderFactor 1 for men. */
  function Deurenberg(bmi: real, age: real, male: bool): (r: real)
    ensures male ==> r == 1.20 * bmi + 0.23 * age - 16.2
    ensures !male ==> r == 1.20 * bmi + 0.23 * age - 5.4
  {
    1.20 * bmi + 0.23 * age - 10.8 * (if male then 1.0 else 0.0) - 5.4
  }

  /** The denominator of the male Navy formula, with `log10` standing for `Math.log10`. */
  function NavyDenominator(m: Anthropometrics, log10: real -> real): real {
    1.0324 - 0.19077 * log10(m.waist - m.neck) + 0.15456 * log10(m.height)
  }

  /** True when the estimate is a finite number: a non-zero height, and for
      men a waist no smaller than the neck, a positive height and (waist above
      neck) a non-zero Navy denominator. */
  predicate InDomain(m: Anthropometrics, log10: real -> real) {
    && m.height != 0.0
    && (m.male ==> m.waist >= m.neck && m.height > 0.0
                   && (m.waist > m.neck ==> NavyDenominator(m, log10) != 0.0))
  }

  /** US Navy. Men: `495 / (1.0324 - 0.19077 log10(waist - neck) + 0.15456 log10(height)) - 450`;
      a negative log argument gives NaN, and waist equal to neck gives
      `log10(0) = -Infinity`, so the fraction vanishes and the result is -450.
      Women: `(waist * 0.74 - neck * 0.082 - 34.89) / height * 100`. */
  function Navy(m: Anthropometrics, log10: real -> real): (r: Num)
    ensures !m.male ==> (r.Finite? <==> m.height != 0.0)
    ensures m.male ==> (r.Finite? <==> m.waist >= m.neck && m.height > 0.0
                                       && (m.waist > m.neck ==> NavyDenominator(m, log10) != 0.0))
    ensures !m.male && r.Finite? ==>
      r.value * m.height == (m.waist * 0.74 - m.neck * 0.082 - 34.89) * 100.0
    ensures m.male && m.waist > m.neck && r.Finite? ==>
      (r.value + 450.0) * NavyDenominator(m, log10) == 495.0
    ensures m.male && m.waist == m.neck && m.height > 0.0 ==> r == Finite(-450.0)
  {
    if m.male then
      if m.waist < m.neck || m.height <= 0.0 then NonFinite
      else if m.waist == m.neck then Finite(-450.0)
      else
        var d := NavyDenominator(m, log10);
        if d == 0.0 then NonFinite else Finite(495.0 / d - 450.0)
    else if m.height == 0.0 then NonFinite
    else Finite((m.waist * 0.74 - m.neck * 0.082 - 34.89) / m.height * 100.0)
  }

  /** The manual estimate: the mean of Deurenberg and Navy. */
  function ManualEstimate(m: Anthropometrics, log10: real -> real): (r: Num)
    ensures r.Finite? <==> InDomain(m, log10)
    ensures r.Finite? ==> Bmi(m.weight, m.height).Finite? && Navy(m, log10).Finite?
    ensures r.Finite? ==>
      var d := Deurenberg(Bmi(m.weight, m.height).value, m.age, m.male);
      var n := Navy(m, log10).value;
      (d <= r.value <= n || n <= r.value <= d) && r.value - d == n - r.value
  {
    var bmi := Bmi(m.weight, m.height);
    var navy := Navy(m, log10);
    if bmi.Finite? && navy.Finite? then
      Finite((Deurenberg(bmi.value, m.age, m.male) + navy.value) / 2.0)
    else NonFinite
  }

  /** For identical inputs the male Deurenberg term is exactly 10.8 below the female one. */
  lemma DeurenbergGenderGap(bmi: real, age: real)
    ensures Deurenberg(bmi, age, false) - Deurenberg(bmi, age, true) == 10.8
  {
  }

  /** The female estimate is finite whenever the height is not zero. */
  lemma FemaleEstimateFinite(m: Anthropometrics, log10: real -> real)
    requires !m.male && m.height != 0.0
    ensures ManualEstimate(m, log10).Finite?
  {
  }

  /** The male estimate of a waist equal to the neck is pinned by the -450 Navy term. */
  lemma MaleEqualWaistNeck(m: Anthropometrics, log10: real -> real)
    requires m.male && m.waist == m.neck && m.height > 0.0
    ensures ManualEstimate(m, log10) == Finite((Deurenberg(Bmi(m.weight, m.height).value, m.age, true) - 450.0) / 2.0)
  {
    assert Navy(m, log10) == Finite(-450.0);
  }

  // ---- classification (getBodyFatCategory) ----

  /** The five brackets, leanest first. */
  datatype Category = Essential | Athletic | Fitness | Average | AboveAverage

  /** `getBodyFatCategory`: strict `<` tests, so a boundary value falls into the higher bracket.
      Any gender other than "male" uses the female table. */
  function Classify(bodyFat: real, gender: string): (c: Category)
    ensures c == Essential <==> bodyFat < Thresholds(gender)[0]
    ensures c == Athletic <==> Thresholds(gender)[0] <= bodyFat < Thresholds(gender)[1]
    ensures c == Fitness <==> Thresholds(gender)[1] <= bodyFat < Thresholds(gender)[2]
    ensures c == Average <==> Thresholds(gender)[2] <= bodyFat < Thresholds(gender)[3]
    ensures c == AboveAverage <==> Thresholds(gender)[3] <= bodyFat
  {
    if gender == "male" then
      if bodyFat < 6.0 then Essential
      else if bodyFat < 14.0 then Athletic
      else if bodyFat < 18.0 then Fitness
      else if bodyFat < 25.0 then Average
      else AboveAverage
    else
      if bodyFat < 14.0 then Essential
      else if bodyFat < 21.0 then Athletic
      else if bodyFat < 25.0 then Fitness
      else if bodyFat < 32.0 then Average
      else AboveAverage
  }

  /** The bracket boundaries of each table. */
  function Thresholds(gender: string): (ts: seq<real>)
    ensures |ts| == 4
  {
    if gender == "male" then [6.0, 14.0, 18.0, 25.0] else [14.0, 21.0, 25.0, 32.0]
  }

  /** Position of a bracket, leanest first. */
  function Rank(c: Category): nat {
    match c
    case Essential => 0
    case Athletic => 1
    case Fitness => 2
    case Average => 3
    case AboveAverage => 4
  }

  /** How many of the boundaries `x` has reached. */
  function Reached(x: real, ts: seq<real>): (n: nat)
    ensures n <= |ts|
    decreases |ts|
  {
    if |ts| == 0 then 0 else Reached(x, ts[..|ts| - 1]) + (if ts[|ts| - 1] <= x then 1 else 0)
  }

  /** The bracket of a value is the number of boundaries it has reached. */
  lemma ClassifyCountsBoundaries(bodyFat: real, gender: string)
    ensures Rank(Classify(bodyFat, gender)) == Reached(bodyFat, Thresholds(gender))
  {
    var ts := Thresholds(gender);
    var x := bodyFat;
    assert Reached(x, ts[..1]) == (if ts[0] <= x then 1 else 0) by {
      assert ts[..1][..0] == [];
    }
    assert Reached(x, ts[..2]) == Reached(x, ts[..1]) + (if ts[1] <= x then 1 else 0) by {
      assert ts[..2][..1] == ts[..1];
    }
    assert Reached(x, ts[..3]) == Reached(x, ts[..2]) + (if ts[2] <= x then 1 else 0) by {
      assert ts[..3][..2] == ts[..2];
    }
    assert Reached(x, ts) == Reached(x, ts[..3]) + (if ts[3] <= x then 1 else 0);
  }

  /** Reaching more is monotone in the value. */
  lemma {:induction false} ReachedMonotone(a: real, b: real, ts: seq<real>)
    requires a <= b
    ensures Reached(a, ts) <= Reached(b, ts)
    decreases |ts|
  {
    if |ts| > 0 {
      ReachedMonotone(a, b, ts[..|ts| - 1]);
    }
  }

  /** Raising body fat never yields a leaner category. */
  lemma ClassifyMonotone(a: real, b: real, gender: string)
    requires a <= b
    ensures Rank(Classify(a, gender)) <= Rank(Classify(b, gender))
  {
    ClassifyCountsBoundaries(a, gender);
    ClassifyCountsBoundaries(b, gender);
    ReachedMonotone(a, b, Thresholds(gender));
  }

  /** Each boundary value belongs to the bracket above it. */
  lemma BoundaryInHigherBracket(gender: string, i: nat)
    requires i < 4
    ensures Rank(Classify(Thresholds(gender)[i], gender)) == i + 1
  {
  }

  /** The card colour of each bracket. */
  function CategoryVariant(c: Category): Variant {
    match c
    case Essential => Destructive
    case Athletic => Success
    case Fitness => Success
    case Average => Default
    case AboveAverage => Warning
  }

  /** The label shown; only the athletic label changes with gender. */
  function CategoryLabel(c: Category, gender: string): string {
    match c
    case Essential => "Gordura Essencial"
    case Athletic => if gender == "male" then "Atlético" else "Atlética"
    case Fitness => "Fitness"
    case Average => "Média"
    case AboveAverage => "Acima da Média"
  }

  /** The five labels are distinct for either gender, and only the athletic
      label changes with gender. */
  lemma CategoryLabelsDistinct(c: Category, d: Category, gender: string)
    ensures CategoryLabel(c, gender) == CategoryLabel(d, gender) <==> c == d
    ensures CategoryLabel(c, "male") != CategoryLabel(c, "female") <==> c == Athletic
  {
    var g := CategoryLabel(c, gender);
    var h := CategoryLabel(d, gender);
    if c != d {
      assert |g| != |h|;
    }
  }
}

=== FILE: body_fat_tab.dfy ===
/** The body-fat tab of the client (client/src/components/BodyFatTab.tsx): the
    manual calculation from the form, the analysis flow that posts the photos
    to the endpoint and falls back to the manual value, and what the summary
    cards display. */
module BodyFatTab {
  import opened Outcomes
  import opened JsNumbers
  import JsValues
  import opened Cards
  import opened BodyFat
  import opened BodyFatEndpoint

  /** The form, as typed. */
  datatype Measurements = Measurements(
    neck: string, waist: string, height: string, gender: string, age: string, weight: string)

  /** The foreign functions the tab calls. */
  datatype Parsers = Parsers(
    parseFloat: string -> Num,  // parseFloat
    parseInt: string -> Num,    // parseInt
    log10: real -> real)        // Math.log10 on positive arguments

  /** The five numeric fields, parsed with `parseFloat`, are all truthy. */
  predicate FieldsFilled(m: Measurements, p: Parsers) {
    && Truthy(p.parseFloat(m.neck)) && Truthy(p.parseFloat(m.waist))
    && Truthy(p.parseFloat(m.height)) && Truthy(p.parseFloat(m.age))
    && Truthy(p.parseFloat(m.weight))
  }

  /** The parsed form as anthropometric input. */
  function FormInput(m: Measurements, p: Parsers): Anthropometrics
    requires FieldsFilled(m, p)
  {
    Anthropometrics(p.parseFloat(m.age).value, p.parseFloat(m.height).value,
                    p.parseFloat(m.weight).value, m.gender == "male",
                    p.parseFloat(m.neck).value, p.parseFloat(m.waist).value)
  }

  /** `calculateBodyFat`: 0 while a field is missing, otherwise the manual estimate. */
  function CalculateBodyFat(m: Measurements, p: Parsers): (r: Num)
    ensures !FieldsFilled(m, p) ==> r == Finite(0.0)
    ensures FieldsFilled(m, p) ==> (r.Finite? <==> InDomain(FormInput(m, p), p.log10))
    ensures FieldsFilled(m, p) && m.gender != "male" ==> r.Finite?
    ensures FieldsFilled(m, p) ==> r == ManualEstimate(FormInput(m, p), p.log10)
  {
    if FieldsFilled(m, p) then ManualEstimate(FormInput(m, p), p.log10) else Finite(0.0)
  }

  // ---- the analysis flow (analyzeBodyFat) ----

  /** The photos picked so far, as data URIs; None until a file is read. */
  datatype Photos = Photos(frontal: Option<string>, lateral: Option<string>, costas: Option<string>)

  /** A truthy photo slot. */
  predicate Present(slot: Option<string>) {
    slot.Some? && slot.value != ""
  }

  /** The images sent: frontal and lateral, then the back photo when there is one. */
  function RequestImages(ph: Photos): (r: seq<Photo>)
    requires Present(ph.frontal) && Present(ph.lateral)
    ensures |r| == (if Present(ph.costas) then 3 else 2)
    ensures r[0] == Photo("frontal", ph.frontal.value) && r[1] == Photo("lateral", ph.lateral.value)
    ensures |r| == 3 ==> r[2] == Photo("costas", ph.costas.value)
  {
    var pair := [Photo("frontal", ph.frontal.value), Photo("lateral", ph.lateral.value)];
    if Present(ph.costas) then pair + [Photo("costas", ph.costas.value)] else pair
  }

  /** `JSON.stringify` of a number: NaN and the infinities become `null`. */
  function Json(n: Num): (v: JsValues.Value)
    ensures JsValues.Truthy(v) <==> Truthy(n)
  {
    if n.Finite? then JsValues.Number(n.value) else JsValues.Null
  }

  /** The request body: age and height go through `parseInt`, the rest through `parseFloat`. */
  function RequestFor(m: Measurements, ph: Photos, p: Parsers): RequestBody
    requires Present(ph.frontal) && Present(ph.lateral)
  {
    RequestBody(Some(RequestImages(ph)),
                Json(p.parseInt(m.age)), Json(p.parseInt(m.height)), Json(p.parseFloat(m.weight)),
                JsValues.Text(m.gender),
                Json(p.parseFloat(m.neck)), Json(p.parseFloat(m.waist)))
  }

  /** The stored result. `combined` is NonFinite when absent or `null`, both falsy. */
  datatype BodyFatResult = BodyFatResult(manual: Num, ai: Option<real>, combined: Num, confidence: Option<real>)

  function ManualOnly(manual: Num): BodyFatResult {
    BodyFatResult(manual, None, NonFinite, None)
  }

  /** What pressing the button leads to: the missing-fields alert, or a result
      together with the request that was posted, if any. */
  datatype Outcome = MissingFields | Shown(result: BodyFatResult, sent: Option<RequestBody>)

  /** `analyzeBodyFat`. `post` is the call to the endpoint: None when the fetch
      throws. A reply that is not ok (only an analysis has status 200) is
      handled like a throw: the manual value alone is shown. */
  function AnalyzeBodyFat(m: Measurements, ph: Photos, p: Parsers, post: RequestBody -> Option<Response>): (o: Outcome)
    ensures o == MissingFields <==> !FieldsFilled(m, p)
    ensures o.Shown? ==> o.result.manual == CalculateBodyFat(m, p)
    ensures o.Shown? ==> (o.sent.Some? <==> Present(ph.frontal) && Present(ph.lateral))
    ensures o.Shown? && o.sent.Some? ==> o.sent.value.images.Some? && 2 <= |o.sent.value.images.value| <= 3
    ensures o.Shown? && o.sent.Some? ==>
      Present(ph.frontal) && Present(ph.lateral) && o.sent.value == RequestFor(m, ph, p)
    ensures o.Shown? && o.sent.Some? && post(o.sent.value).Some? && post(o.sent.value).value.Analyzed? ==>
      o.result.ai.Some?
    ensures o.Shown? && o.result.ai.Some? ==>
      && o.sent.Some? && post(o.sent.value).Some? && Status(post(o.sent.value).value) == 200
      && var reply := post(o.sent.value).value;
         o.result == BodyFatResult(o.result.manual, Some(reply.bodyFatPercentage), reply.combinedEstimate, Some(reply.confidence))
    ensures o.Shown? && o.result.ai.None? ==> o.result == ManualOnly(o.result.manual)
  {
    if !FieldsFilled(m, p) then MissingFields
    else
      var manual := CalculateBodyFat(m, p);
      if !(Present(ph.frontal) && Present(ph.lateral)) then Shown(ManualOnly(manual), None)
      else
        var b := RequestFor(m, ph, p);
        var reply := post(b);
        if reply.Some? && reply.value.Analyzed? then
          Shown(BodyFatResult(manual, Some(reply.value.bodyFatPercentage),
                              reply.value.combinedEstimate, Some(reply.value.confidence)), Some(b))
        else Shown(ManualOnly(manual), Some(b))
  }

  /** Without both photos nothing is posted and only the manual value is shown. */
  lemma NoPhotosNoRequest(m: Measurements, ph: Photos, p: Parsers, post: RequestBody -> Option<Response>)
    requires FieldsFilled(m, p) && !(Present(ph.frontal) && Present(ph.lateral))
    ensures AnalyzeBodyFat(m, ph, p, post) == Shown(ManualOnly(CalculateBodyFat(m, p)), None)
  {
  }

  /** A failed or rejected request falls back to the manual value. */
  lemma FallsBackToManual(m: Measurements, ph: Photos, p: Parsers, post: RequestBody -> Option<Response>)
    requires FieldsFilled(m, p) && Present(ph.frontal) && Present(ph.lateral)
    requires post(RequestFor(m, ph, p)).None? || Status(post(RequestFor(m, ph, p)).value) != 200
    ensures AnalyzeBodyFat(m, ph, p, post) == Shown(ManualOnly(CalculateBodyFat(m, p)), Some(RequestFor(m, ph, p)))
  {
  }

  /** An analysis reply is stored as it came: the AI value, the combined
      estimate and the confidence beside the tab's own manual value. */
  lemma ShowsAnalysis(m: Measurements, ph: Photos, p: Parsers, post: RequestBody -> Option<Response>,
                      bf: real, c: real, why: string, comb: Num)
    requires FieldsFilled(m, p) && Present(ph.frontal) && Present(ph.lateral)
    requires post(RequestFor(m, ph, p)) == Some(Analyzed(bf, c, why, comb))
    ensures AnalyzeBodyFat(m, ph, p, post)
            == Shown(BodyFatResult(CalculateBodyFat(m, p), Some(bf), comb, Some(c)), Some(RequestFor(m, ph, p)))
  {
  }

  /** The endpoint's guard accepts the tab's request exactly when the
      `parseInt` age and height, the weight and the gender are truthy; an age
      typed as "0.5" passes the tab's own check but is refused. */
  lemma ClientRequestGuard(m: Measurements, ph: Photos, p: Parsers)
    requires Present(ph.frontal) && Present(ph.lateral)
    ensures RequestAccepted(RequestFor(m, ph, p)) <==>
      Truthy(p.parseInt(m.age)) && Truthy(p.parseInt(m.height)) && Truthy(p.parseFloat(m.weight)) && m.gender != ""
  {
  }

  /** When `parseInt` and `parseFloat` agree on age and height and the neck and
      waist are positive, the endpoint's manual leg computes the tab's own value. */
  lemma ServerManualMatchesClient(m: Measurements, ph: Photos, p: Parsers, env: Foreign)
    requires FieldsFilled(m, p) && Present(ph.frontal) && Present(ph.lateral)
    requires p.parseInt(m.age) == p.parseFloat(m.age) && p.parseInt(m.height) == p.parseFloat(m.height)
    requires p.parseFloat(m.neck).value > 0.0 && p.parseFloat(m.waist).value > 0.0
    requires env.log10 == p.log10
    ensures ManualGate(RequestFor(m, ph, p), env)
    ensures BodyManualEstimate(RequestFor(m, ph, p), p.parseFloat(m.neck).value, p.parseFloat(m.waist).value, env)
            == CalculateBodyFat(m, p)
  {
    var b := RequestFor(m, ph, p);
    assert (b.gender == JsValues.Text("male")) == (m.gender == "male");
  }

  // ---- the summary cards ----

  /** `result?.combined || result?.manual || 0`. */
  function DisplayValue(r: Option<BodyFatResult>): (v: real)
    ensures r.Some? && Truthy(r.value.combined) ==> v == r.value.combined.value
    ensures r.Some? && !Truthy(r.value.combined) && Truthy(r.value.manual) ==> v == r.value.manual.value
    ensures r.None? || (!Truthy(r.value.combined) && !Truthy(r.value.manual)) ==> v == 0.0
  {
    if r.Some? && Truthy(r.value.combined) then r.value.combined.value
    else if r.Some? && Truthy(r.value.manual) then r.value.manual.value
    else 0.0
  }

  /** The method card: "IA + Manual" when the combined value is truthy, else
      "Manual" when the manual value is, else "--". */
  function MethodLabel(r: Option<BodyFatResult>): (shown: string)
    ensures shown == "IA + Manual" <==> r.Some? && Truthy(r.value.combined)
    ensures shown == "Manual" <==> r.Some? && !Truthy(r.value.combined) && Truthy(r.value.manual)
    ensures shown == "--" <==> DisplayValue(r) == 0.0
  {
    if r.Some? && Truthy(r.value.combined) then "IA + Manual"
    else if r.Some? && Truthy(r.value.manual) then "Manual"
    else "--"
  }

  /** The method card names the value the percentage card displays. */
  lemma LabelMatchesDisplay(r: Option<BodyFatResult>)
    ensures MethodLabel(r) == "IA + Manual" <==> r.Some? && Truthy(r.value.combined)
    ensures MethodLabel(r) == "IA + Manual" ==> DisplayValue(r) == r.value.combined.value
    ensures MethodLabel(r) == "Manual" ==> r.Some? && DisplayValue(r) == r.value.manual.value
    ensures MethodLabel(r) == "--" ==> DisplayValue(r) == 0.0
  {
  }

  /** Any analysis reply whose combined estimate is a non-zero number is what
      gets displayed, and the AI value is then never shown on its own. */
  lemma CombinedWinsWhenPresent(m: Measurements, ph: Photos, p: Parsers, post: RequestBody -> Option<Response>)
    requires AnalyzeBodyFat(m, ph, p, post).Shown?
    requires Truthy(AnalyzeBodyFat(m, ph, p, post).result.combined)
    ensures AnalyzeBodyFat(m, ph, p, post).result.ai.Some?
    ensures MethodLabel(Some(AnalyzeBodyFat(m, ph, p, post).result)) == "IA + Manual"
  {
  }

  /** The percentage and category cards: shown only for a positive value. */
  datatype Summary = Summary(percentage: Option<real>, category: Option<Category>, variant: Variant)

  function Summarize(v: real, gender: string): (s: Summary)
    ensures s.percentage.Some? <==> v > 0.0
    ensures s.category.Some? <==> v > 0.0
    ensures s.percentage.Some? ==> OneDecimal(s.percentage.value) && -0.05 <= s.percentage.value - v <= 0.05
    ensures v > 0.0 ==> s.category == Some(Classify(v, gender))
    ensures s.category.Some? ==> s.variant == CategoryVariant(s.category.value)
    ensures s.category.None? ==> s.variant == Default
  {
    if v > 0.0 then
      var c := Classify(v, gender);
      Summary(Some(ToFixed1(v)), Some(c), CategoryVariant(c))
    else Summary(None, None, Default)
  }

  /** A negative manual value reads "Manual" on the method card while the
      percentage card shows "--". */
  lemma NegativeManualHidden(manual: real, gender: string)
    requires manual < 0.0
    ensures MethodLabel(Some(ManualOnly(Finite(manual)))) == "Manual"
    ensures Summarize(DisplayValue(Some(ManualOnly(Finite(manual)))), gender).percentage.None?
  {
  }
}

=== FILE: calories.dfy ===
/** The calories tab (client/src/components/CaloriesTab.tsx): the day's total
    against the fixed goal of 2200 kcal, and the entry built when a food is
    added with a custom portion. */
module Calories {
  import opened Outcomes
  import opened JsNumbers
  import opened Cards
  import Tally

  /** A food of the database: calories per standard portion, portion in grams,
      optional macronutrients in grams. */
  datatype Food = Food(name: string, calories: int, portion: int,
                       protein: Option<real>, carbs: Option<real>, fat: Option<real>)

  /** A logged entry, as read back for the day. */
  datatype FoodEntry = FoodEntry(foodName: string, calories: int, portion: real,
                                 protein: Option<real>, carbs: Option<real>, fat: Option<real>,
                                 date: string, time: string)

  /** The fixed daily goal. */
  const DailyGoal: int := 2200

  /** The day's total: the sum of the entries' calories. */
  function TotalCalories(entries: seq<FoodEntry>): (total: int)
    ensures |entries| == 0 ==> total == 0
    ensures |entries| == 1 ==> total == entries[0].calories
  {
    Tally.Sum(entries, (e: FoodEntry) => e.calories)
  }

  /** Entries that never have negative calories give a total that is not negative. */
  lemma TotalNonNegative(entries: seq<FoodEntry>)
    requires forall i :: 0 <= i < |entries| ==> entries[i].calories >= 0
    ensures TotalCalories(entries) >= 0
  {
    Tally.SumNonNegative(entries, (e: FoodEntry) => e.calories);
  }

  /** Logging one more entry raises the total by exactly its calories. */
  lemma TotalAfterLogging(entries: seq<FoodEntry>, e: FoodEntry)
    ensures TotalCalories(entries + [e]) == TotalCalories(entries) + e.calories
    ensures TotalCalories([]) == 0
  {
    Tally.SumAppend(entries, [e], (x: FoodEntry) => x.calories);
    assert [e][..0] == [];
  }

  /** `Math.max(0, dailyGoal - totalCalories)`. */
  function Remaining(total: int): (r: nat)
    ensures r == 0 <==> total >= DailyGoal
    ensures total <= DailyGoal ==> total + r == DailyGoal
  {
    if DailyGoal - total > 0 then DailyGoal - total else 0
  }

  /** `totalCalories / dailyGoal * 100`. */
  function Progress(total: int): (p: real)
    ensures p * 22.0 == total as real
  {
    total as real / DailyGoal as real * 100.0
  }

  /** Above 110% destructive, above 90% warning, success otherwise. */
  function ProgressVariant(progress: real): (v: Variant)
    ensures v == Destructive <==> progress > 110.0
    ensures v == Warning <==> 90.0 < progress <= 110.0
    ensures v == Variant.Success <==> progress <= 90.0
  {
    if progress > 110.0 then Destructive
    else if progress > 90.0 then Warning
    else Variant.Success
  }

  /** In calories: more than 2420 is destructive, more than 1980 a warning. */
  lemma VariantThresholds(total: int)
    ensures ProgressVariant(Progress(total)) == Destructive <==> total > 2420
    ensures ProgressVariant(Progress(total)) == Warning <==> 1980 < total <= 2420
    ensures ProgressVariant(Progress(total)) == Variant.Success <==> total <= 1980
  {
  }

  /** Reaching the goal exactly reads as a warning with nothing remaining. */
  lemma GoalReached()
    ensures Remaining(DailyGoal) == 0 && ProgressVariant(Progress(DailyGoal)) == Warning
  {
  }

  /** The entry posted when a food is added; NaN where the portion does not parse. */
  datatype NewFoodEntry = NewFoodEntry(foodName: string, calories: Num, portion: Num,
                                       protein: Option<Num>, carbs: Option<Num>, fat: Option<Num>,
                                       date: string, time: string)

  /** A macronutrient scaled to the portion; absent when missing or zero. */
  function ScaledMacro(amount: Option<real>, multiplier: Num): (r: Option<Num>)
    ensures r.Some? <==> amount.Some? && amount.value != 0.0
    ensures r.Some? && multiplier.Finite? ==> r.value == Finite(amount.value * multiplier.value)
  {
    if amount.Some? && amount.value != 0.0 then Some(Scale(multiplier, amount.value)) else None
  }

  /** `addFood`: nothing is posted without a selected food and a portion. The
      multiplier is the typed portion over the food's standard portion;
      calories are rounded with `Math.round`. `today` and `time` come from the
      clock. */
  function AddFood(selected: Option<Food>, customPortion: string, parseFloat: string -> Num,
                   today: string, time: string): (r: Option<NewFoodEntry>)
    ensures r.Some? <==> selected.Some? && customPortion != ""
    ensures r.Some? ==> r.value.foodName == selected.value.name + " (" + customPortion + "g)"
    ensures r.Some? ==> r.value.portion == parseFloat(customPortion) && r.value.date == today && r.value.time == time
    ensures r.Some? ==>
      var m := Div(parseFloat(customPortion), Finite(selected.value.portion as real));
      && (r.value.calories.Finite? <==> m.Finite?)
      && (m.Finite? ==> -0.5 < r.value.calories.value - selected.value.calories as real * m.value <= 0.5)
      && (m.Finite? ==> r.value.calories.value == r.value.calories.value.Floor as real)
    ensures r.Some? ==>
      var m := Div(parseFloat(customPortion), Finite(selected.value.portion as real));
      && r.value.protein == ScaledMacro(selected.value.protein, m)
      && r.value.carbs == ScaledMacro(selected.value.carbs, m)
      && r.value.fat == ScaledMacro(selected.value.fat, m)
  {
    if selected.None? || customPortion == "" then None
    else
      var food := selected.value;
      var multiplier := Div(parseFloat(customPortion), Finite(food.portion as real));
      Some(NewFoodEntry(food.name + " (" + customPortion + "g)",
                        Round(Scale(multiplier, food.calories as real)),
                        parseFloat(customPortion),
                        ScaledMacro(food.protein, multiplier),
                        ScaledMacro(food.carbs, multiplier),
                        ScaledMacro(food.fat, multiplier),
                        today, time))
  }

  /** Keeping the standard portion logs the food's own calories and macronutrients. */
  lemma StandardPortion(food: Food, customPortion: string, parseFloat: string -> Num, today: string, time: string)
    requires customPortion != "" && food.portion != 0
    requires parseFloat(customPortion) == Finite(food.portion as real)
    ensures AddFood(Some(food), customPortion, parseFloat, today, time).value.calories == Finite(food.calories as real)
    ensures food.protein.Some? && food.protein.value != 0.0 ==>
      AddFood(Some(food), customPortion, parseFloat, today, time).value.protein == Some(Finite(food.protein.value))
  {
    var p := food.portion as real;
    assert p / p == 1.0;
    var m := Div(parseFloat(customPortion), Finite(p));
    assert m == Finite(1.0);
    assert Scale(m, food.calories as real) == Finite(food.calories as real);
    assert MathRound(food.calories as real) == food.calories;
    assert Round(Finite(food.calories as real)) == Finite(food.calories as real);
    assert food.protein.Some? ==> Scale(m, food.protein.value) == Finite(food.protein.value);
  }

  /** A standard portion of 0 g yields no finite calories. */
  lemma ZeroPortionFood(food: Food, customPortion: string, parseFloat: string -> Num, today: string, time: string)
    requires customPortion != "" && food.portion == 0
    ensures AddFood(Some(food), customPortion, parseFloat, today, time).value.calories == NonFinite
  {
  }
}

=== FILE: cards.dfy ===
/** The colour variant a metric card is drawn with; every tab picks one from
    thresholds on its figures. */
module Cards {
  datatype Variant = Default | Success | Warning | Destructive
}

=== FILE: endpoint.dfy ===
/** The body-fat analysis endpoint (`POST /api/analyze-body-fat` in
    server/routes.ts): request guard, image preparation, AI call, fence
    stripping, JSON extraction, validation, and the 60/40 combination with the
    manual estimate, rounded to one decimal. */
module BodyFatEndpoint {
  import opened Outcomes
  import opened JsNumbers
  import opened JsValues
  import opened JsStrings
  import BalancedJson
  import Fences
  import opened AiValidation
  import opened BodyFat

  /** One uploaded photo: its angle name and its data URI. */
  datatype Photo = Photo(angle: string, data: string)

  /** The request body. `images` is None when the field is missing or is not an
      array; a missing `manualMeasurements` leaves `neck` and `waist` Undefined. */
  datatype RequestBody = RequestBody(
    images: Option<seq<Photo>>,
    age: Value, height: Value, weight: Value, gender: Value,
    neck: Value, waist: Value)

  /** The foreign functions the endpoint calls. */
  datatype Foreign = Foreign(
    parseJson: string -> Option<AiObject>,  // JSON.parse; None when it throws
    parseFloat: string -> Num,              // parseFloat of a string
    numberText: string -> Num,              // a string's numeric coercion in arithmetic
    log10: real -> real)                    // Math.log10 on positive arguments

  // ---- request guard (line 75) ----

  /** At least two images and truthy age, height, weight and gender. Only the
      number of images is checked, not their angles. */
  function RequestAccepted(b: RequestBody): (ok: bool)
    ensures ok <==> && b.images.Some? && |b.images.value| >= 2
                    && b.age !in FalsyValues && b.height !in FalsyValues
                    && b.weight !in FalsyValues && b.gender !in FalsyValues
    ensures ok ==> |ImageParts(b.images.value)| >= 2
  {
    TruthyIffNotFalsy(b.age);
    TruthyIffNotFalsy(b.height);
    TruthyIffNotFalsy(b.weight);
    TruthyIffNotFalsy(b.gender);
    && b.images.Some? && |b.images.value| >= 2
    && JsValues.Truthy(b.age) && JsValues.Truthy(b.height) && JsValues.Truthy(b.weight) && JsValues.Truthy(b.gender)
  }

  /** Two back photos pass the guard as well as a frontal and a lateral one. */
  lemma OnlyImageCountChecked(b: RequestBody, x: string, y: string)
    requires JsValues.Truthy(b.age) && JsValues.Truthy(b.height) && JsValues.Truthy(b.weight) && JsValues.Truthy(b.gender)
    ensures RequestAccepted(b.(images := Some([Photo("costas", x), Photo("costas", y)])))
    ensures !RequestAccepted(b.(images := Some([Photo("frontal", x)])))
    ensures !RequestAccepted(b.(images := None))
  {
  }

  // ---- data-URI split (lines 147-148) ----

  /** The part of the data URI the AI receives: its MIME type and base64 payload
      (None where the source reads `undefined`). */
  datatype ImagePart = ImagePart(mimeType: Option<string>, data: Option<string>)

  /** `parts[i]`, undefined past the end. */
  function Piece(parts: seq<string>, i: nat): Option<string> {
    if i < |parts| then Some(parts[i]) else None
  }

  /** `data.split(',')[1]` and `data.split(';')[0].split(':')[1]`. */
  function ImagePartOf(p: Photo): (r: ImagePart)
    ensures r.data.Some? ==> ',' !in r.data.value
    ensures r.mimeType.Some? ==> ':' !in r.mimeType.value
    ensures r.data.None? <==> ',' !in p.data
  {
    var fields := Split(p.data, ',');
    assert ',' !in p.data ==> fields == [p.data] by {
      if ',' !in p.data { SplitWhole(p.data, ','); }
    }
    assert ',' in p.data ==> |fields| >= 2 by {
      JoinSplit(p.data, ',');
    }
    var head := Split(p.data, ';')[0];
    ImagePart(Piece(Split(head, ':'), 1), Piece(fields, 1))
  }

  /** A data URI built from a MIME type and a payload splits back into them. */
  lemma DataUriRoundTrip(angle: string, mime: string, payload: string)
    requires ';' !in mime && ',' !in mime && ':' !in mime
    requires ',' !in payload
    ensures ImagePartOf(Photo(angle, "data:" + mime + ";base64," + payload)) == ImagePart(Some(mime), Some(payload))
  {
    var uri := "data:" + mime + ";base64," + payload;
    var beforeComma := "data:" + mime + ";base64";
    assert uri == beforeComma + [','] + payload;
    assert ',' !in beforeComma;
    SplitAfter(beforeComma, payload, ',');
    SplitWhole(payload, ',');
    var head := "data:" + mime;
    assert uri == head + [';'] + ("base64," + payload);
    assert ';' !in head;
    SplitAfter(head, "base64," + payload, ';');
    assert head == "data" + [':'] + mime;
    SplitAfter("data", mime, ':');
    SplitWhole(mime, ':');
  }

  /** The image parts sent with the prompt, one per photo, in order. */
  function ImageParts(images: seq<Photo>): (r: seq<ImagePart>)
    ensures |r| == |images|
    ensures forall i :: 0 <= i < |r| ==> r[i] == ImagePartOf(images[i])
  {
    seq(|images|, i requires 0 <= i < |images| => ImagePartOf(images[i]))
  }

  // ---- combination (lines 223-246) ----

  /** The gate on the manual leg: truthy neck and waist that parse to positive numbers. */
  function ManualGate(b: RequestBody, env: Foreign): (gate: bool)
    ensures b.neck in FalsyValues || b.waist in FalsyValues ==> !gate
    ensures b.neck.Bool? || b.neck == Object || b.waist.Bool? || b.waist == Object ==> !gate
    ensures b.neck.Number? && b.waist.Number? ==> (gate <==> b.neck.x > 0.0 && b.waist.x > 0.0)
    ensures gate ==> && ParseFloat(b.neck, env.parseFloat).Finite? && ParseFloat(b.neck, env.parseFloat).value > 0.0
                     && ParseFloat(b.waist, env.parseFloat).Finite? && ParseFloat(b.waist, env.parseFloat).value > 0.0
  {
    TruthyIffNotFalsy(b.neck);
    TruthyIffNotFalsy(b.waist);
    && JsValues.Truthy(b.neck) && JsValues.Truthy(b.waist)
    && Positive(ParseFloat(b.neck, env.parseFloat)) && Positive(ParseFloat(b.waist, env.parseFloat))
  }

  /** The manual estimate from the body; age, height and weight are coerced to
      numbers by the arithmetic, and gender is compared with `'male'` strictly. */
  function BodyManualEstimate(b: RequestBody, neck: real, waist: real, env: Foreign): (r: Num)
    ensures r.Finite? ==> && ToNumber(b.age, env.numberText).Finite?
                          && ToNumber(b.height, env.numberText).Finite?
                          && ToNumber(b.weight, env.numberText).Finite?
    ensures r.Finite? ==>
      var m := Anthropometrics(ToNumber(b.age, env.numberText).value, ToNumber(b.height, env.numberText).value,
                               ToNumber(b.weight, env.numberText).value, b.gender == Text("male"), neck, waist);
      && InDomain(m, env.log10)
      && r.value - Deurenberg(Bmi(m.weight, m.height).value, m.age, m.male) == Navy(m, env.log10).value - r.value
    ensures && b.gender != Text("male")
            && ToNumber(b.age, env.numberText).Finite? && ToNumber(b.weight, env.numberText).Finite?
            && ToNumber(b.height, env.numberText).Finite? && ToNumber(b.height, env.numberText).value != 0.0
            ==> r.Finite?
  {
    var age := ToNumber(b.age, env.numberText);
    var height := ToNumber(b.height, env.numberText);
    var weight := ToNumber(b.weight, env.numberText);
    if age.Finite? && height.Finite? && weight.Finite? then
      ManualEstimate(Anthropometrics(age.value, height.value, weight.value, b.gender == Text("male"), neck, waist), env.log10)
    else NonFinite
  }

  /** 60% AI, 40% manual: the result lies three fifths of the way from the
      manual value to the AI value. */
  function Blend(ai: real, manual: real): (r: real)
    ensures ai <= r <= manual || manual <= r <= ai
    ensures ai != manual ==> r != manual
    ensures (r - manual) * 5.0 == (ai - manual) * 3.0
  {
    ai * 0.6 + manual * 0.4
  }

  /** The combined estimate before rounding: the AI value unchanged unless the
      manual gate opens, and then the 60/40 blend. */
  function CombinedEstimate(ai: real, b: RequestBody, env: Foreign): (r: Num)
    ensures !ManualGate(b, env) ==> r == Finite(ai)
    ensures ManualGate(b, env) ==>
      var m := BodyManualEstimate(b, ParseFloat(b.neck, env.parseFloat).value, ParseFloat(b.waist, env.parseFloat).value, env);
      (r.Finite? <==> m.Finite?) && (r.Finite? ==> (ai <= r.value <= m.value || m.value <= r.value <= ai))
    ensures ManualGate(b, env) ==>
      var m := BodyManualEstimate(b, ParseFloat(b.neck, env.parseFloat).value, ParseFloat(b.waist, env.parseFloat).value, env);
      m.Finite? ==> r == Finite(Blend(ai, m.value))
  {
    if ManualGate(b, env) then
      var m := BodyManualEstimate(b, ParseFloat(b.neck, env.parseFloat).value, ParseFloat(b.waist, env.parseFloat).value, env);
      if m.Finite? then Finite(Blend(ai, m.value)) else NonFinite
    else Finite(ai)
  }

  /** The worked example: an AI value of 25 and a manual value of 20 give 23.0. */
  lemma BlendExample()
    ensures Blend(25.0, 20.0) == 23.0 && ToFixed1(Blend(25.0, 20.0)) == 23.0
  {
    assert (23.0 * 10.0 + 0.5).Floor == 230;
  }

  // ---- the whole request ----

  /** `JSON.parse(c)` succeeds and `bodyFatPercentage` is defined. */
  function Accepts(parseJson: string -> Option<AiObject>): (accept: string -> bool)
    ensures forall c :: parseJson(c).None? ==> !accept(c)
    ensures forall c :: parseJson(c).Some? && parseJson(c).value.bodyFatPercentage == Null ==> accept(c)
    ensures forall c :: accept(c) ==> parseJson(c).Some? && parseJson(c).value.bodyFatPercentage != Undefined
  {
    c => parseJson(c).Some? && parseJson(c).value.bodyFatPercentage != Undefined
  }

  /** The endpoint's answer. */
  datatype Response =
    | InsufficientInput     // 400, before any AI call
    | AnalysisFailed        // 500: the AI call failed
    | InvalidAiFormat       // 502: no acceptable JSON object in the reply
    | UnprocessableAi       // 502: the object failed validation
    | Analyzed(bodyFatPercentage: real, confidence: real, reasoning: string,
               combinedEstimate: Num)  // NonFinite is sent as JSON null

  /** The HTTP status; only an analysis is ok. */
  function Status(r: Response): (code: int)
    ensures code == 200 <==> r.Analyzed?
    ensures 400 <= code < 600 <==> !r.Analyzed?
  {
    match r
    case InsufficientInput => 400
    case AnalysisFailed => 500
    case InvalidAiFormat => 502
    case UnprocessableAi => 502
    case Analyzed(_, _, _, _) => 200
  }

  /** The endpoint. `aiService` is the AI call: its reply text for the image
      parts, or None when the call fails. */
  function Analyze(b: RequestBody, aiService: seq<ImagePart> -> Option<string>, env: Foreign): (r: Response)
    ensures r == InsufficientInput <==> !RequestAccepted(b)
    ensures RequestAccepted(b) && aiService(ImageParts(b.images.value)).None? ==> r == AnalysisFailed
    ensures r.Analyzed? ==> WellFormed(Analysis(r.bodyFatPercentage, r.confidence, r.reasoning))
    ensures r.Analyzed? && r.combinedEstimate.Finite? ==>
      CombinedEstimate(r.bodyFatPercentage, b, env).Finite? &&
      OneDecimal(r.combinedEstimate.value) && -0.05 <= r.combinedEstimate.value - CombinedEstimate(r.bodyFatPercentage, b, env).value <= 0.05
    ensures r.Analyzed? && !ManualGate(b, env) ==> r.combinedEstimate == Finite(ToFixed1(r.bodyFatPercentage))
    ensures RequestAccepted(b) && aiService(ImageParts(b.images.value)).Some? ==>
      var text := aiService(ImageParts(b.images.value)).value;
      BalancedJson.Extract(Fences.CleanReply(text), Accepts(env.parseJson)).None? ==> r == InvalidAiFormat
    ensures RequestAccepted(b) && aiService(ImageParts(b.images.value)).Some? ==>
      var text := aiService(ImageParts(b.images.value)).value;
      var json := BalancedJson.Extract(Fences.CleanReply(text), Accepts(env.parseJson));
      json.Some? ==>
        match Validate(env.parseJson(json.value).value, env.parseFloat)
        case Failure(_) => r == UnprocessableAi
        case Success(a) =>
          r == Analyzed(a.bodyFatPercentage, a.confidence, a.reasoning,
                        Fixed1(CombinedEstimate(a.bodyFatPercentage, b, env)))
  {
    if !RequestAccepted(b) then InsufficientInput
    else
      match aiService(ImageParts(b.images.value))
      case None => AnalysisFailed
      case Some(text) =>
        var accepts := Accepts(env.parseJson);
        match BalancedJson.Extract(Fences.CleanReply(text), accepts)
        case None => InvalidAiFormat
        case Some(json) =>
          assert accepts(json);
          match Validate(env.parseJson(json).value, env.parseFloat)
          case Failure(_) => UnprocessableAi
          case Success(a) =>
            Analyzed(a.bodyFatPercentage, a.confidence, a.reasoning,
                     Fixed1(CombinedEstimate(a.bodyFatPercentage, b, env)))
  }

  /** An analysis is always backed by a balanced object found in the cleaned
      reply, parsed and validated into exactly the values returned. */
  lemma AnalyzedComesFromReply(b: RequestBody, aiService: seq<ImagePart> -> Option<string>, env: Foreign)
    requires Analyze(b, aiService, env).Analyzed?
    ensures RequestAccepted(b) && aiService(ImageParts(b.images.value)).Some?
    ensures
      var r := Analyze(b, aiService, env);
      var json := BalancedJson.Extract(Fences.CleanReply(aiService(ImageParts(b.images.value)).value), Accepts(env.parseJson));
      && json.Some? && BalancedJson.Balanced(json.value)
      && env.parseJson(json.value).Some?
      && Validate(env.parseJson(json.value).value, env.parseFloat)
         == Success(Analysis(r.bodyFatPercentage, r.confidence, r.reasoning))
  {
  }

  /** A fenced reply whose object has a `null` body-fat value passes the
      extractor, which refuses only `undefined`, and then fails validation:
      the answer is 502 for an unprocessable object, not for a bad format. */
  lemma NullBodyFatUnprocessable(b: RequestBody, aiService: seq<ImagePart> -> Option<string>, env: Foreign, obj: string)
    requires RequestAccepted(b)
    requires aiService(ImageParts(b.images.value)) == Some("```json" + obj + "```")
    requires Fences.NoTick(obj) && BalancedJson.Balanced(obj)
    requires env.parseJson(obj).Some? && env.parseJson(obj).value.bodyFatPercentage == Null
    ensures Analyze(b, aiService, env) == UnprocessableAi
  {
    assert "" + "```json" + obj + "```" + "" == "```json" + obj + "```";
    Fences.FencedObjectFound("", obj, "", Accepts(env.parseJson));
  }
}

=== FILE: fences.dfy ===
/** Cleaning the AI reply before the JSON scan (server/routes.ts:170): remove
    Markdown code-fence markers, with an optional `json` tag in any letter case,
    then any remaining bare markers, then surrounding whitespace. */
module Fences {
  import opened JsStrings
  import opened Outcomes
  import BalancedJson

  const Tick := '`'

  /** The four letters `json` in any letter case (the regular expression's `i` flag). */
  predicate JsonTag(t: string) {
    && |t| == 4
    && (t[0] == 'j' || t[0] == 'J')
    && (t[1] == 's' || t[1] == 'S')
    && (t[2] == 'o' || t[2] == 'O')
    && (t[3] == 'n' || t[3] == 'N')
  }

  predicate StartsWithFence(s: string) {
    |s| >= 3 && s[0] == Tick && s[1] == Tick && s[2] == Tick
  }

  /** `s.replace(/```(?:json)?/gi, '')`: leftmost matches, left to right; at a
      marker the optional tag is taken whenever present. */
  function StripTaggedFences(s: string): (r: string)
    ensures |r| <= |s|
    decreases |s|
  {
    if StartsWithFence(s) then
      if |s| >= 7 && JsonTag(s[3..7]) then StripTaggedFences(s[7..]) else StripTaggedFences(s[3..])
    else if |s| == 0 then []
    else [s[0]] + StripTaggedFences(s[1..])
  }

  /** `s.replace(/```/g, '')` */
  function StripBareFences(s: string): (r: string)
    ensures |r| <= |s|
    decreases |s|
  {
    if StartsWithFence(s) then StripBareFences(s[3..])
    else if |s| == 0 then []
    else [s[0]] + StripBareFences(s[1..])
  }

  /** `s` opens with a `json` tag in any letter case, so a marker right before
      it would take the tag with it. */
  predicate OpensWithTag(s: string) {
    |s| >= 4 && JsonTag(s[..4])
  }

  /** Text without a backtick. */
  predicate NoTick(s: string) {
    forall k :: 0 <= k < |s| ==> s[k] != Tick
  }

  /** The text handed to the extractor: no fence marker is left in it, it does
      not start or end with whitespace, and a reply without backticks is only
      trimmed. */
  function CleanReply(text: string): (r: string)
    ensures |r| <= |text|
    ensures !HasFence(r)
    ensures r != [] ==> !IsSpace(r[0]) && !IsSpace(r[|r| - 1])
    ensures NoTick(text) ==> r == Trim(text)
  {
    var s := StripTaggedFences(text);
    NoFenceAfterStrip(text);
    BareStripKeepsFenceless(s);
    TrimKeepsFenceless(s);
    PlainTextUnstripped(text);
    Trim(StripBareFences(s))
  }

  predicate FenceAt(s: string, i: int) {
    0 <= i && i + 3 <= |s| && s[i] == Tick && s[i + 1] == Tick && s[i + 2] == Tick
  }

  predicate HasFence(s: string) {
    exists i :: 0 <= i < |s| && FenceAt(s, i)
  }

  predicate StartsWithTwoTicks(s: string) {
    |s| >= 2 && s[0] == Tick && s[1] == Tick
  }

  /** Text that does not open with two backticks does not get them by stripping. */
  lemma NoTwoTicksCreated(t: string)
    requires !StartsWithTwoTicks(t)
    ensures !StartsWithTwoTicks(StripTaggedFences(t))
  {
    if |t| >= 2 && t[0] == Tick {
      assert !StartsWithFence(t[1..]);
    }
  }

  /** After the first replacement no fence marker is left: removing a marker
      never joins backticks into a new one. */
  lemma {:induction false} NoFenceAfterStrip(s: string)
    ensures !HasFence(StripTaggedFences(s))
    decreases |s|
  {
    if StartsWithFence(s) {
      if |s| >= 7 && JsonTag(s[3..7]) {
        NoFenceAfterStrip(s[7..]);
      } else {
        NoFenceAfterStrip(s[3..]);
      }
    } else if |s| > 0 {
      var tail := StripTaggedFences(s[1..]);
      var r := StripTaggedFences(s);
      assert r == [s[0]] + tail;
      NoFenceAfterStrip(s[1..]);
      if s[0] == Tick {
        assert !StartsWithTwoTicks(s[1..]);
        NoTwoTicksCreated(s[1..]);
      }
      forall i | FenceAt(r, i)
        ensures false
      {
        if i > 0 {
          assert FenceAt(tail, i - 1);
        }
      }
    }
  }

  /** The second replacement only acts on text that still has a marker. */
  lemma {:induction false} BareStripKeepsFenceless(s: string)
    requires !HasFence(s)
    ensures StripBareFences(s) == s
    decreases |s|
  {
    if |s| > 0 {
      assert !FenceAt(s, 0);
      assert !HasFence(s[1..]) by {
        forall i | FenceAt(s[1..], i)
          ensures false
        {
          assert FenceAt(s, i + 1);
        }
      }
      BareStripKeepsFenceless(s[1..]);
    }
  }

  /** The source's second `replace(/```/g, '')` never changes anything. */
  lemma SecondReplaceRedundant(text: string)
    ensures CleanReply(text) == Trim(StripTaggedFences(text))
  {
    NoFenceAfterStrip(text);
    BareStripKeepsFenceless(StripTaggedFences(text));
  }

  /** Trimming cannot create a fence marker, and it only shortens the text. */
  lemma TrimKeepsFenceless(s: string)
    requires !HasFence(s)
    ensures !HasFence(Trim(s)) && |Trim(s)| <= |s|
  {
    var i, j :| 0 <= i <= j <= |s| && Trim(s) == s[i..j] && AllSpace(s[..i]) && AllSpace(s[j..]);
    forall k | FenceAt(Trim(s), k)
      ensures false
    {
      assert FenceAt(s, i + k);
    }
  }

  /** Text without backticks passes through the first replacement unchanged. */
  lemma PlainTextUnstripped(text: string)
    ensures NoTick(text) ==> StripTaggedFences(text) == text
  {
    if NoTick(text) {
      StripKeepsPlainPrefix(text, []);
      assert text + [] == text;
    }
  }

  /** Text before the first backtick passes through the first replacement
      untouched. */
  lemma {:induction false} StripKeepsPlainPrefix(a: string, b: string)
    requires NoTick(a)
    ensures StripTaggedFences(a + b) == a + StripTaggedFences(b)
    decreases |a|
  {
    if |a| == 0 {
      assert a + b == b;
    } else {
      var s := a + b;
      var a' := a[1..];
      assert s[0] == a[0] && a[0] != Tick;
      assert !StartsWithFence(s);
      assert s[1..] == a' + b;
      assert NoTick(a') by {
        forall k | 0 <= k < |a'| ensures a'[k] != Tick { assert a'[k] == a[k + 1]; }
      }
      StripKeepsPlainPrefix(a', b);
      assert StripTaggedFences(s) == [a[0]] + (a' + StripTaggedFences(b));
      assert a == [a[0]] + a';
    }
  }

  /** The first replacement takes out the opening ```` ```json ```` marker and
      leaves the prose before it and the fence-free object after it intact. */
  lemma StripFenced(pre: string, obj: string, post: string)
    requires NoTick(pre) && NoTick(obj)
    ensures StripTaggedFences(pre + "```json" + obj + "```" + post)
            == pre + obj + StripTaggedFences("```" + post)
  {
    var fenced := "```json" + obj + "```" + post;
    assert pre + "```json" + obj + "```" + post == pre + fenced;
    StripKeepsPlainPrefix(pre, fenced);
    assert StartsWithFence(fenced) && fenced[3..7] == "json";
    assert JsonTag(fenced[3..7]);
    assert fenced[7..] == obj + ("```" + post);
    StripKeepsPlainPrefix(obj, "```" + post);
  }

  /** Every character of all-whitespace text is whitespace. */
  lemma SpaceAt(w: string, k: int)
    requires AllSpace(w)
    ensures 0 <= k < |w| ==> IsSpace(w[k])
  {
  }

  /** Trimming never cuts into a stretch that opens and closes with
      non-whitespace. */
  lemma TrimKeepsCore(s: string, p: nat, q: nat)
    requires p < q <= |s| && !IsSpace(s[p]) && !IsSpace(s[q - 1])
    ensures exists i, j :: 0 <= i <= p && q <= j <= |s| && Trim(s) == s[i..j]
  {
    var i, j :| 0 <= i <= j <= |s| && Trim(s) == s[i..j] && AllSpace(s[..i]) && AllSpace(s[j..]);
    SpaceAt(s[..i], p);
    SpaceAt(s[j..], q - 1 - j);
    assert 0 <= i <= p && q <= j <= |s| && Trim(s) == s[i..j];
  }

  /** A slice reaching across the middle of a concatenation. */
  lemma SliceAround(pre: string, mid: string, rest: string, i: nat, j: nat)
    requires i <= |pre| && |pre| + |mid| <= j <= |pre| + |mid| + |rest|
    ensures (pre + mid + rest)[i..j] == pre[i..] + mid + rest[..j - |pre| - |mid|]
  {
    var s := pre + mid + rest;
    var p, q := |pre|, |pre| + |mid|;
    assert s[i..j] == s[i..p] + s[p..q] + s[q..j];
    assert s[i..p] == pre[i..];
    assert s[p..q] == mid;
    assert s[q..j] == rest[..j - q];
  }

  /** Trimming text whose middle part opens and closes with non-whitespace
      cuts only into the parts around it. */
  lemma TrimAround(pre: string, mid: string, rest: string)
    requires |mid| > 0 && !IsSpace(mid[0]) && !IsSpace(mid[|mid| - 1])
    ensures exists i, k :: 0 <= i <= |pre| && 0 <= k <= |rest| && Trim(pre + mid + rest) == pre[i..] + mid + rest[..k]
  {
    var s := pre + mid + rest;
    var p, q := |pre|, |pre| + |mid|;
    assert s[p] == mid[0] && s[q - 1] == mid[|mid| - 1];
    TrimKeepsCore(s, p, q);
    var i, j :| 0 <= i <= p && q <= j <= |s| && Trim(s) == s[i..j];
    SliceAround(pre, mid, rest, i, j);
    assert Trim(s) == pre[i..] + mid + rest[..j - q];
  }

  /** Text without an opening brace. */
  predicate NoBrace(s: string) {
    forall k :: 0 <= k < |s| ==> s[k] != '{'
  }

  lemma NoTickConcat(a: string, b: string)
    requires NoTick(a) && NoTick(b)
    ensures NoTick(a + b)
  {
    forall k | 0 <= k < |a + b|
      ensures (a + b)[k] != Tick
    {
      if k < |a| { assert (a + b)[k] == a[k]; } else { assert (a + b)[k] == b[k - |a|]; }
    }
  }

  lemma NoBraceConcat(a: string, b: string)
    requires NoBrace(a) && NoBrace(b)
    ensures NoBrace(a + b)
  {
    forall k | 0 <= k < |a + b|
      ensures (a + b)[k] != '{'
    {
      if k < |a| { assert (a + b)[k] == a[k]; } else { assert (a + b)[k] == b[k - |a|]; }
    }
  }

  lemma NoBraceSuffix(s: string, i: nat)
    requires NoBrace(s) && i <= |s|
    ensures NoBrace(s[i..])
  {
    forall m | 0 <= m < |s[i..]|
      ensures s[i..][m] != '{'
    {
      assert s[i..][m] == s[i + m];
    }
  }

  /** A marker followed by a `json` tag in any letter case is removed together
      with its tag; the prose before it is kept. */
  lemma StripTagFenced(pre: string, tag: string, rest: string)
    requires NoTick(pre) && JsonTag(tag)
    ensures StripTaggedFences(pre + "```" + tag + rest) == pre + StripTaggedFences(rest)
  {
    var fenced := "```" + tag + rest;
    assert pre + "```" + tag + rest == pre + fenced;
    StripKeepsPlainPrefix(pre, fenced);
    assert StartsWithFence(fenced) && fenced[3..7] == tag;
    assert fenced[7..] == rest;
  }

  /** A bare marker, one not followed by a `json` tag, is removed alone: the
      prose before it is kept and what follows it is stripped on its own. */
  lemma StripBareFenced(pre: string, rest: string)
    requires NoTick(pre) && !OpensWithTag(rest)
    ensures StripTaggedFences(pre + ("```" + rest)) == pre + StripTaggedFences(rest)
  {
    StripKeepsPlainPrefix(pre, "```" + rest);
    BareMarkerDropped(rest);
  }

  lemma BareMarkerDropped(rest: string)
    requires !OpensWithTag(rest)
    ensures StripTaggedFences("```" + rest) == StripTaggedFences(rest)
  {
    var fenced := "```" + rest;
    assert StartsWithFence(fenced);
    assert fenced[3..] == rest;
    if |fenced| >= 7 {
      assert fenced[3..7] == rest[..4];
    }
  }

  /** Backtick-free text and an object pass the first replacement whole. */
  lemma PlainThenRest(gap: string, obj: string, post: string)
    requires NoTick(gap) && NoTick(obj)
    ensures StripTaggedFences(gap + obj + post) == gap + obj + StripTaggedFences(post)
  {
    NoTickConcat(gap, obj);
    assert gap + obj + post == (gap + obj) + post;
    StripKeepsPlainPrefix(gap + obj, post);
  }

  /** Once the first replacement has left `{`-free text, then an accepted
      balanced object, then anything, the extractor finds that object. */
  lemma StrippedObjectFound(text: string, lead: string, obj: string, rest: string, accepts: string -> bool)
    requires StripTaggedFences(text) == lead + obj + rest
    requires NoBrace(lead)
    requires BalancedJson.Balanced(obj) && accepts(obj)
    ensures BalancedJson.Extract(CleanReply(text), accepts) == Some(obj)
  {
    SecondReplaceRedundant(text);
    BalancedJson.BalancedOpens(obj);
    BalancedJson.BalancedCloses(obj);
    TrimAround(lead, obj, rest);
    var i, k :| 0 <= i <= |lead| && 0 <= k <= |rest| && Trim(lead + obj + rest) == lead[i..] + obj + rest[..k];
    var prose := lead[i..];
    NoBraceSuffix(lead, i);
    assert CleanReply(text) == prose + obj + rest[..k];
    BalancedJson.FirstObjectFound(prose, obj, rest[..k], accepts);
  }

  /** Tolerance of prose and tagged fences: after `{`-free prose, a marker with
      a `json` tag in any letter case and `{`-free text such as a line break, an
      accepted balanced object is what the extractor finds in the cleaned reply,
      whatever follows it (the closing marker included). */
  lemma TagFencedObjectFound(pre: string, tag: string, gap: string, obj: string, post: string, accepts: string -> bool)
    requires NoTick(pre) && NoTick(gap) && NoTick(obj) && JsonTag(tag)
    requires NoBrace(pre) && NoBrace(gap)
    requires BalancedJson.Balanced(obj) && accepts(obj)
    ensures BalancedJson.Extract(CleanReply(pre + "```" + tag + gap + obj + post), accepts) == Some(obj)
  {
    var text := pre + "```" + tag + gap + obj + post;
    var rest := gap + obj + post;
    assert text == pre + "```" + tag + rest;
    StripTagFenced(pre, tag, rest);
    PlainThenRest(gap, obj, post);
    NoBraceConcat(pre, gap);
    assert StripTaggedFences(text) == (pre + gap) + obj + StripTaggedFences(post);
    StrippedObjectFound(text, pre + gap, obj, StripTaggedFences(post), accepts);
  }

  /** Tolerance of prose and bare fences: the same with a marker that carries
      no tag, that is, one whose following text does not open with a `json` tag
      in any letter case (which the marker would take with it). */
  lemma BareFencedObjectFound(pre: string, gap: string, obj: string, post: string, accepts: string -> bool)
    requires NoTick(pre) && NoTick(gap) && NoTick(obj)
    requires NoBrace(pre) && NoBrace(gap)
    requires !OpensWithTag(gap + obj + post)
    requires BalancedJson.Balanced(obj) && accepts(obj)
    ensures BalancedJson.Extract(CleanReply(pre + "```" + gap + obj + post), accepts) == Some(obj)
  {
    var text := pre + "```" + gap + obj + post;
    MarkerRegrouped(pre, gap, obj, post);
    StripBareAround(pre, gap, obj, post);
    NoBraceConcat(pre, gap);
    StrippedObjectFound(text, pre + gap, obj, StripTaggedFences(post), accepts);
  }

  lemma MarkerRegrouped(pre: string, gap: string, obj: string, post: string)
    ensures pre + "```" + gap + obj + post == pre + ("```" + (gap + obj + post))
  {
  }

  /** The first replacement on a reply with a bare opening marker. */
  lemma StripBareAround(pre: string, gap: string, obj: string, post: string)
    requires NoTick(pre) && NoTick(gap) && NoTick(obj)
    requires !OpensWithTag(gap + obj + post)
    ensures StripTaggedFences(pre + ("```" + (gap + obj + post))) == (pre + gap) + obj + StripTaggedFences(post)
  {
    var rest := gap + obj + post;
    var stripped := StripTaggedFences(post);
    StripBareFenced(pre, rest);
    PlainThenRest(gap, obj, post);
    Regrouped(pre, gap, obj, stripped);
  }

  lemma Regrouped(pre: string, gap: string, obj: string, tail: string)
    ensures pre + (gap + obj + tail) == (pre + gap) + obj + tail
  {
  }

  /** The common case: prose, ```` ```json ````, the object, ```` ``` ````, prose. */
  lemma FencedObjectFound(pre: string, obj: string, post: string, accepts: string -> bool)
    requires NoTick(pre) && NoTick(obj)
    requires forall k :: 0 <= k < |pre| ==> pre[k] != '{'
    requires BalancedJson.Balanced(obj) && accepts(obj)
    ensures BalancedJson.Extract(CleanReply(pre + "```json" + obj + "```" + post), accepts) == Some(obj)
  {
    assert JsonTag("json");
    assert pre + "```json" + obj + "```" + post == pre + "```" + "json" + [] + obj + ("```" + post);
    TagFencedObjectFound(pre, "json", [], obj, "```" + post, accepts);
  }

  /** Stripping only deletes characters, and only backticks and tag letters:
      braces, quotes and backslashes all survive. */
  lemma {:induction false} StripOnlyDeletesFenceChars(s: string, c: char)
    requires c !in "`jsonJSON"
    ensures multiset(StripTaggedFences(s)) <= multiset(s)
    ensures multiset(StripTaggedFences(s))[c] == multiset(s)[c]
    decreases |s|
  {
    if StartsWithFence(s) {
      var n := if |s| >= 7 && JsonTag(s[3..7]) then 7 else 3;
      assert StripTaggedFences(s) == StripTaggedFences(s[n..]);
      StripOnlyDeletesFenceChars(s[n..], c);
      DroppedPrefix(s, n, c);
    } else if |s| > 0 {
      StripOnlyDeletesFenceChars(s[1..], c);
      assert s == [s[0]] + s[1..];
    }
  }

  /** The marker (and tag) a match removes holds no character outside the fence alphabet. */
  lemma DroppedPrefix(s: string, n: nat, c: char)
    requires StartsWithFence(s)
    requires n == 3 || (n == 7 && |s| >= 7 && JsonTag(s[3..7]))
    requires c !in "`jsonJSON"
    ensures multiset(s[n..]) <= multiset(s)
    ensures multiset(s[n..])[c] == multiset(s)[c]
  {
    var p := s[..n];
    assert s == p + s[n..];
    assert forall k :: 0 <= k < n ==> p[k] in "`jsonJSON";
    assert c !in p;
    assert multiset(s) == multiset(p) + multiset(s[n..]);
  }
}

=== FILE: jsnumbers.dfy ===
/** JavaScript numbers as the fitness tracker uses them: exact reals plus one
    value for everything that is not a finite number. */
module JsNumbers {

  /** A JavaScript number. Finite values are exact reals (IEEE rounding is not
      modelled); `NonFinite` is NaN, and also stands for the +-Infinity that an
      exact division by zero produces. */
  datatype Num = Finite(value: real) | NonFinite

  /** JavaScript truthiness of a number: `0` and `NaN` are falsy. */
  predicate Truthy(n: Num) {
    n.Finite? && n.value != 0.0
  }

  /** `n > 0`; every comparison with NaN is false. */
  predicate Positive(n: Num) {
    n.Finite? && n.value > 0.0
  }

  /** `a + b` */
  function Add(a: Num, b: Num): Num {
    if a.Finite? && b.Finite? then Finite(a.value + b.value) else NonFinite
  }

  /** `a * k` for a finite constant `k` */
  function Scale(a: Num, k: real): Num {
    if a.Finite? then Finite(a.value * k) else NonFinite
  }

  /** `a / b`; a division by zero leaves the finite numbers. */
  function Div(a: Num, b: Num): Num {
    if a.Finite? && b.Finite? && b.value != 0.0 then Finite(a.value / b.value) else NonFinite
  }

  /** `Math.round(x)`: the nearest integer, halves rounded up (towards +Infinity). */
  function MathRound(x: real): (r: int)
    ensures x - 0.5 < r as real <= x + 0.5
  {
    (x + 0.5).Floor
  }

  /** `Math.round` on a number that may be NaN. */
  function Round(n: Num): (r: Num)
    ensures r.Finite? <==> n.Finite?
    ensures r.Finite? ==> r.value == (r.value.Floor as real) && n.value - 0.5 < r.value <= n.value + 0.5
  {
    if n.Finite? then Finite(MathRound(n.value) as real) else NonFinite
  }

  /** True when `x` has at most one decimal digit. */
  predicate OneDecimal(x: real) {
    x * 10.0 == ((x * 10.0).Floor as real)
  }

  /** `parseFloat(x.toFixed(1))`: the magnitude is rounded to the nearest tenth,
      halves away from zero, and the sign is put back in front. */
  function ToFixed1(x: real): (r: real)
    ensures OneDecimal(r)
    ensures -0.05 <= r - x <= 0.05
  {
    var m := if x >= 0.0 then x else -x;
    var k := (m * 10.0 + 0.5).Floor;
    NearestTenth(m, k);
    if x >= 0.0 then k as real / 10.0 else -(k as real / 10.0)
  }

  /** `k / 10` with `k` the rounded `10 m` is within 0.05 of `m`, and it and its
      negation have one decimal. */
  lemma NearestTenth(m: real, k: int)
    requires k == (m * 10.0 + 0.5).Floor
    ensures OneDecimal(k as real / 10.0) && OneDecimal(-(k as real / 10.0))
    ensures -0.05 <= k as real / 10.0 - m <= 0.05
  {
    TenthOneDecimal(k);
    var t := k as real / 10.0;
    assert t * 10.0 == k as real;
    assert k as real <= m * 10.0 + 0.5 < k as real + 1.0;
    assert (t - m) * 10.0 == k as real - m * 10.0;
  }

  /** A whole number of tenths, and its negation, have one decimal. */
  lemma TenthOneDecimal(k: int)
    ensures OneDecimal(k as real / 10.0) && OneDecimal(-(k as real / 10.0))
  {
    WholeTenths(k as real / 10.0, k);
  }

  lemma WholeTenths(t: real, k: int)
    requires t * 10.0 == k as real
    ensures OneDecimal(t) && OneDecimal(-t)
  {
    var n := -k;
    assert (k as real).Floor == k;
    assert (n as real).Floor == n;
    assert (-t) * 10.0 == n as real;
  }

  /** The rounding of `toFixed(1)` is idempotent: a value already at one decimal is kept. */
  lemma ToFixed1Idempotent(x: real)
    ensures ToFixed1(ToFixed1(x)) == ToFixed1(x)
  {
    var r := ToFixed1(x);
    var k := (r * 10.0).Floor;
    assert r * 10.0 == k as real;
    if r >= 0.0 {
      assert (r * 10.0 + 0.5).Floor == k;
    } else {
      assert (-r * 10.0 + 0.5).Floor == -k;
    }
  }

  /** `parseFloat(n.toFixed(1))` on a number that may be NaN: `"NaN"` and
      `"Infinity"` parse back to themselves. */
  function Fixed1(n: Num): (r: Num)
    ensures r.Finite? <==> n.Finite?
    ensures r.Finite? ==> OneDecimal(r.value) && -0.05 <= r.value - n.value <= 0.05
  {
    if n.Finite? then Finite(ToFixed1(n.value)) else NonFinite
  }
}

=== FILE: jsstrings.dfy ===
/** The JavaScript string operations the core relies on: `trim`, `split` with a
    one-character separator, and `length` (counted in UTF-16 code units). */
module JsStrings {

  /** The characters `String.prototype.trim` removes: the ECMAScript
      WhiteSpace and LineTerminator code points. */
  predicate IsSpace(c: char) {
    var n := c as int;
    n == 0x09 || n == 0x0A || n == 0x0B || n == 0x0C || n == 0x0D || n == 0x20 ||
    n == 0xA0 || n == 0x1680 || (0x2000 <= n <= 0x200A) || n == 0x2028 || n == 0x2029 ||
    n == 0x202F || n == 0x205F || n == 0x3000 || n == 0xFEFF
  }

  predicate AllSpace(s: string) {
    forall k :: 0 <= k < |s| ==> IsSpace(s[k])
  }

  /** Number of leading whitespace characters. */
  function LeadingSpace(s: string): (n: nat)
    ensures n <= |s|
    ensures AllSpace(s[..n])
    ensures n < |s| ==> !IsSpace(s[n])
  {
    if |s| > 0 && IsSpace(s[0]) then
      var m := LeadingSpace(s[1..]);
      assert s[..m + 1] == [s[0]] + s[1..][..m];
      m + 1
    else 0
  }

  /** Number of trailing whitespace characters. */
  function TrailingSpace(s: string): (n: nat)
    ensures n <= |s|
    ensures AllSpace(s[|s| - n..])
    ensures n < |s| ==> !IsSpace(s[|s| - n - 1])
  {
    if |s| > 0 && IsSpace(s[|s| - 1]) then
      var init := s[..|s| - 1];
      var m := TrailingSpace(init);
      assert s[|s| - (m + 1)..] == init[|init| - m..] + [s[|s| - 1]];
      m + 1
    else 0
  }

  /** `s.trim()` */
  function Trim(s: string): (r: string)
    ensures exists i, j :: 0 <= i <= j <= |s| && r == s[i..j] && AllSpace(s[..i]) && AllSpace(s[j..])
    ensures r != [] ==> !IsSpace(r[0]) && !IsSpace(r[|r| - 1])
    ensures r == [] <==> AllSpace(s)
  {
    var a := LeadingSpace(s);
    if a == |s| then
      assert s[..a] == s;
      assert s[a..] == [];
      []
    else
      var b := TrailingSpace(s);
      assert !AllSpace(s) by { assert !IsSpace(s[a]); }
      s[a..|s| - b]
  }

  /** `s.split(sep)` for a one-character separator: the pieces between
      separators, always at least one (`"".split(",")` is `[""]`). */
  function Split(s: string, sep: char): (r: seq<string>)
    ensures |r| >= 1
    ensures forall i :: 0 <= i < |r| ==> sep !in r[i]
    decreases |s|
  {
    if |s| == 0 then [""]
    else if s[0] == sep then [""] + Split(s[1..], sep)
    else
      var t := Split(s[1..], sep);
      [[s[0]] + t[0]] + t[1..]
  }

  /** `parts.join(sep)` */
  function Join(parts: seq<string>, sep: char): string
    requires |parts| >= 1
    decreases |parts|
  {
    if |parts| == 1 then parts[0] else parts[0] + [sep] + Join(parts[1..], sep)
  }

  /** Splitting loses nothing: joining the pieces back restores the string. */
  lemma {:induction false} JoinSplit(s: string, sep: char)
    ensures Join(Split(s, sep), sep) == s
    decreases |s|
  {
    if |s| == 0 {
    } else if s[0] == sep {
      JoinSplit(s[1..], sep);
      assert s == [sep] + s[1..];
    } else {
      JoinSplit(s[1..], sep);
      var t := Split(s[1..], sep);
      if |t| == 1 {
        assert s == [s[0]] + s[1..];
      } else {
        assert Split(s, sep)[1..] == t[1..];
        assert Join(t, sep) == t[0] + [sep] + Join(t[1..], sep);
        assert s == [s[0]] + s[1..];
      }
    }
  }

  /** A separator-free prefix glues onto the first piece of what follows. */
  lemma {:induction false} SplitPrefix(a: string, rest: string, sep: char)
    requires sep !in a
    ensures Split(a + rest, sep) == [a + Split(rest, sep)[0]] + Split(rest, sep)[1..]
    decreases |a|
  {
    if |a| == 0 {
      var t := Split(rest, sep);
      assert a + rest == rest;
      assert a + t[0] == t[0];
      assert t == [t[0]] + t[1..];
    } else {
      SplitPrefix(a[1..], rest, sep);
      assert (a + rest)[1..] == a[1..] + rest;
      assert (a + rest)[0] == a[0];
      assert [a[0]] + (a[1..] + Split(rest, sep)[0]) == a + Split(rest, sep)[0];
    }
  }

  /** Text before the first separator is exactly the first piece. */
  lemma SplitAfter(a: string, b: string, sep: char)
    requires sep !in a
    ensures Split(a + [sep] + b, sep) == [a] + Split(b, sep)
  {
    SplitPrefix(a, [sep] + b, sep);
    assert a + [sep] + b == a + ([sep] + b);
    assert ([sep] + b)[1..] == b;
    assert Split([sep] + b, sep) == [""] + Split(b, sep);
    assert a + "" == a;
  }

  /** A string without the separator is a single piece. */
  lemma SplitWhole(a: string, sep: char)
    requires sep !in a
    ensures Split(a, sep) == [a]
  {
    SplitPrefix(a, "", sep);
    assert a + "" == a;
  }

  /** The other direction of the round trip: separator-free pieces survive a
      join followed by a split. */
  lemma {:induction false} SplitJoin(parts: seq<string>, sep: char)
    requires |parts| >= 1
    requires forall i :: 0 <= i < |parts| ==> sep !in parts[i]
    ensures Split(Join(parts, sep), sep) == parts
    decreases |parts|
  {
    if |parts| == 1 {
      SplitWhole(parts[0], sep);
    } else {
      SplitJoin(parts[1..], sep);
      SplitAfter(parts[0], Join(parts[1..], sep), sep);
      assert [parts[0]] + parts[1..] == parts;
    }
  }

  /** Number of UTF-16 code units of one character. */
  function CodeUnits(c: char): nat {
    if c as int > 0xFFFF then 2 else 1
  }

  /** `s.length`: JavaScript counts UTF-16 code units, so a character outside
      the Basic Multilingual Plane counts twice. */
  function Utf16Length(s: string): (n: nat)
    ensures |s| <= n <= 2 * |s|
    decreases |s|
  {
    if |s| == 0 then 0 else Utf16Length(s[..|s| - 1]) + CodeUnits(s[|s| - 1])
  }
}

=== FILE: jsvalues.dfy ===
/** The JSON values that arrive in a request body or in the AI's reply, and
    the JavaScript coercions the server applies to them. */
module JsValues {
  import opened JsNumbers

  /** A value read from parsed JSON (or `undefined` for a missing property).
      `Object` is any object or array. */
  datatype Value =
    | Undefined
    | Null
    | Bool(b: bool)
    | Number(x: real)
    | Text(s: string)
    | Object

  /** JavaScript truthiness (`!v` is its negation): `undefined`, `null`,
      `false`, `0` and `""` are falsy. */
  predicate Truthy(v: Value) {
    match v
    case Undefined => false
    case Null => false
    case Bool(b) => b
    case Number(x) => x != 0.0
    case Text(s) => s != ""
    case Object => true
  }

  /** The five falsy values a JSON body can hold, as ECMAScript's ToBoolean lists them. */
  const FalsyValues: set<Value> := {Undefined, Null, Bool(false), Number(0.0), Text("")}

  /** Truthiness is exactly not being one of the falsy values. */
  lemma TruthyIffNotFalsy(v: Value)
    ensures Truthy(v) <==> v !in FalsyValues
  {
  }

  /** `parseFloat(v)`: the value's string form is parsed by `parseText`; the
      string forms of `undefined`, `null`, booleans and objects are not numeric. */
  function ParseFloat(v: Value, parseText: string -> Num): (r: Num)
    ensures v.Number? ==> r == Finite(v.x)
    ensures v.Text? ==> r == parseText(v.s)
    ensures !v.Number? && !v.Text? ==> r == NonFinite
  {
    match v
    case Number(x) => Finite(x)
    case Text(s) => parseText(s)
    case _ => NonFinite
  }

  /** The implicit numeric coercion of `v` in arithmetic (`v / 100`, `0.23 * v`):
      `true` is 1, `false` and `null` are 0, strings go through `numberText`. */
  function ToNumber(v: Value, numberText: string -> Num): (r: Num)
    ensures v.Number? ==> r == Finite(v.x)
    ensures v == Null || v == Bool(false) ==> r == Finite(0.0)
    ensures v == Bool(true) ==> r == Finite(1.0)
    ensures v == Undefined || v == Object ==> r == NonFinite
  {
    match v
    case Undefined => NonFinite
    case Null => Finite(0.0)
    case Bool(b) => if b then Finite(1.0) else Finite(0.0)
    case Number(x) => Finite(x)
    case Text(s) => numberText(s)
    case Object => NonFinite
  }
}

=== FILE: outcomes.dfy ===
/** Failure-carrying wrappers shared by every module of the model. */
module Outcomes {

  /** A value that may be missing; stands for JavaScript's `null` / `undefined` returns. */
  datatype Option<+T> = None | Some(value: T)

  /** A computation that either succeeds or fails with a named error. */
  datatype Result<+T, +E> = Success(value: T) | Failure(error: E)
}

=== FILE: profile.dfy ===
/** The profile tab (client/src/components/ProfileTab.tsx): basal metabolic
    rate, daily energy expenditure, daily calorie goal, BMI and its category,
    and the guard before the profile is saved. */
module Profile {
  import opened Outcomes
  import opened JsNumbers
  import opened Cards
  import BodyFat

  /** The form, as typed or selected. */
  datatype ProfileForm = ProfileForm(
    age: string, height: string, weight: string, gender: string,
    activityLevel: string, goal: string)

  /** `activityMultipliers[level] || 1.2`: an unknown level counts as sedentary. */
  function ActivityMultiplier(level: string): (k: real)
    ensures 1.2 <= k <= 1.9
    ensures k == 1.2 <== level !in {"light", "moderate", "active", "very_active"}
  {
    if level == "sedentary" then 1.2
    else if level == "light" then 1.375
    else if level == "moderate" then 1.55
    else if level == "active" then 1.725
    else if level == "very_active" then 1.9
    else 1.2
  }

  /** The activity levels from least to most active. */
  const ActivityLevels: seq<string> := ["sedentary", "light", "moderate", "active", "very_active"]

  /** A more active level always has a strictly larger multiplier. */
  lemma MultipliersIncrease(i: nat, j: nat)
    requires i < j < |ActivityLevels|
    ensures ActivityMultiplier(ActivityLevels[i]) < ActivityMultiplier(ActivityLevels[j])
  {
  }

  /** `goalCalorieAdjustments[goal] || 0`: an unknown goal counts as maintenance. */
  function GoalAdjustment(goal: string): (a: int)
    ensures -500 <= a <= 500
    ensures a == 0 <==> goal !in {"lean_bulk", "aggressive_bulk", "cut", "aggressive_cut"}
    ensures a > 0 <==> goal in {"lean_bulk", "aggressive_bulk"}
  {
    if goal == "maintain" then 0
    else if goal == "lean_bulk" then 250
    else if goal == "aggressive_bulk" then 500
    else if goal == "cut" then -300
    else if goal == "aggressive_cut" then -500
    else 0
  }

  /** The goals from the deepest deficit to the largest surplus. */
  const Goals: seq<string> := ["aggressive_cut", "cut", "maintain", "lean_bulk", "aggressive_bulk"]

  lemma AdjustmentsIncrease(i: nat, j: nat)
    requires i < j < |Goals|
    ensures GoalAdjustment(Goals[i]) < GoalAdjustment(Goals[j])
  {
  }

  /** Age, height, weight and gender are all non-empty. */
  predicate BmrFieldsFilled(f: ProfileForm) {
    f.age != "" && f.height != "" && f.weight != "" && f.gender != ""
  }

  /** Mifflin-St Jeor: `10 w + 6.25 h - 5 a + 5` for men, `- 161` otherwise. */
  function MifflinStJeor(age: real, height: real, weight: real, male: bool): (r: real)
    ensures male ==> r == 10.0 * weight + 6.25 * height - 5.0 * age + 5.0
    ensures !male ==> r == 10.0 * weight + 6.25 * height - 5.0 * age + 5.0 - 166.0
  {
    10.0 * weight + 6.25 * height - 5.0 * age + (if male then 5.0 else -161.0)
  }

  /** `calculateBMR`: 0 while a field is empty; NaN when a field does not parse. */
  function Bmr(f: ProfileForm, parseFloat: string -> Num): (r: Num)
    ensures !BmrFieldsFilled(f) ==> r == Finite(0.0)
    ensures BmrFieldsFilled(f) ==>
      (r.Finite? <==> parseFloat(f.age).Finite? && parseFloat(f.height).Finite? && parseFloat(f.weight).Finite?)
    ensures BmrFieldsFilled(f) && r.Finite? ==>
      r.value == MifflinStJeor(parseFloat(f.age).value, parseFloat(f.height).value, parseFloat(f.weight).value, f.gender == "male")
  {
    if !BmrFieldsFilled(f) then Finite(0.0)
    else
      var age := parseFloat(f.age);
      var height := parseFloat(f.height);
      var weight := parseFloat(f.weight);
      if age.Finite? && height.Finite? && weight.Finite? then
        Finite(MifflinStJeor(age.value, height.value, weight.value, f.gender == "male"))
      else NonFinite
  }

  /** Men's BMR is 166 kcal above women's for the same body, and each kilogram adds 10. */
  lemma MifflinStJeorShape(age: real, height: real, weight: real, male: bool)
    ensures MifflinStJeor(age, height, weight, true) - MifflinStJeor(age, height, weight, false) == 166.0
    ensures MifflinStJeor(age, height, weight + 1.0, male) - MifflinStJeor(age, height, weight, male) == 10.0
    ensures MifflinStJeor(age + 1.0, height, weight, male) < MifflinStJeor(age, height, weight, male)
  {
  }

  /** `calculateTDEE`: BMR times the activity multiplier. */
  function Tdee(f: ProfileForm, parseFloat: string -> Num): (r: Num)
    ensures r.Finite? <==> Bmr(f, parseFloat).Finite?
    ensures r.Finite? ==> r.value == Bmr(f, parseFloat).value * ActivityMultiplier(f.activityLevel)
  {
    Scale(Bmr(f, parseFloat), ActivityMultiplier(f.activityLevel))
  }

  /** `calculateDailyCalorieGoal`: TDEE plus the goal's adjustment. */
  function DailyGoal(f: ProfileForm, parseFloat: string -> Num): (r: Num)
    ensures r.Finite? <==> Bmr(f, parseFloat).Finite?
    ensures r.Finite? ==> r.value - Tdee(f, parseFloat).value == GoalAdjustment(f.goal) as real
  {
    Add(Tdee(f, parseFloat), Finite(GoalAdjustment(f.goal) as real))
  }

  /** For the same body and activity, a goal further along the list gives a larger daily goal. */
  lemma DailyGoalFollowsGoal(f: ProfileForm, parseFloat: string -> Num, i: nat, j: nat)
    requires i < j < |Goals|
    requires Bmr(f, parseFloat).Finite?
    ensures DailyGoal(f.(goal := Goals[i]), parseFloat).value < DailyGoal(f.(goal := Goals[j]), parseFloat).value
  {
    AdjustmentsIncrease(i, j);
  }

  /** A more active level never lowers the expenditure of a non-negative BMR. */
  lemma TdeeFollowsActivity(f: ProfileForm, parseFloat: string -> Num, i: nat, j: nat)
    requires i < j < |ActivityLevels|
    requires Bmr(f, parseFloat).Finite? && Bmr(f, parseFloat).value >= 0.0
    ensures Tdee(f.(activityLevel := ActivityLevels[i]), parseFloat).value <= Tdee(f.(activityLevel := ActivityLevels[j]), parseFloat).value
  {
    MultipliersIncrease(i, j);
    var b := Bmr(f, parseFloat).value;
    var ki := ActivityMultiplier(ActivityLevels[i]);
    var kj := ActivityMultiplier(ActivityLevels[j]);
    assert b * kj - b * ki == b * (kj - ki);
    assert Bmr(f.(activityLevel := ActivityLevels[i]), parseFloat) == Bmr(f, parseFloat);
    assert Bmr(f.(activityLevel := ActivityLevels[j]), parseFloat) == Bmr(f, parseFloat);
  }

  /** `calculateBMI`: 0 while height or weight is empty. */
  function BodyMassIndex(f: ProfileForm, parseFloat: string -> Num): (r: Num)
    ensures f.height == "" || f.weight == "" ==> r == Finite(0.0)
    ensures f.height != "" && f.weight != "" ==>
      (r.Finite? <==> parseFloat(f.height).Finite? && parseFloat(f.weight).Finite? && parseFloat(f.height).value != 0.0)
    ensures f.height != "" && f.weight != "" && r.Finite? ==>
      var h := parseFloat(f.height).value / 100.0;
      r.value * (h * h) == parseFloat(f.weight).value
  {
    if f.height == "" || f.weight == "" then Finite(0.0)
    else
      var height := parseFloat(f.height);
      var weight := parseFloat(f.weight);
      if height.Finite? && weight.Finite? then BodyFat.Bmi(weight.value, height.value) else NonFinite
  }

  /** The four BMI brackets. */
  datatype BmiCategory = Underweight | Normal | Overweight | Obese

  /** `getBMICategory`: strict `<` tests; NaN fails them all and lands in the last bracket. */
  function Categorize(bmi: Num): (c: BmiCategory)
    ensures bmi.NonFinite? ==> c == Obese
    ensures c == Underweight <==> bmi.Finite? && bmi.value < 18.5
    ensures c == Normal <==> bmi.Finite? && 18.5 <= bmi.value < 25.0
    ensures c == Overweight <==> bmi.Finite? && 25.0 <= bmi.value < 30.0
    ensures c == Obese <==> bmi.NonFinite? || bmi.value >= 30.0
  {
    if bmi.Finite? && bmi.value < 18.5 then Underweight
    else if bmi.Finite? && bmi.value < 25.0 then Normal
    else if bmi.Finite? && bmi.value < 30.0 then Overweight
    else Obese
  }

  function BmiRank(c: BmiCategory): nat {
    match c
    case Underweight => 0
    case Normal => 1
    case Overweight => 2
    case Obese => 3
  }

  /** A higher finite BMI never falls into a lower bracket. */
  lemma CategorizeMonotone(a: real, b: real)
    requires a <= b
    ensures BmiRank(Categorize(Finite(a))) <= BmiRank(Categorize(Finite(b)))
  {
  }

  /** An empty form reads as underweight: its BMI is 0. */
  lemma EmptyFormUnderweight(f: ProfileForm, parseFloat: string -> Num)
    requires f.height == ""
    ensures Categorize(BodyMassIndex(f, parseFloat)) == Underweight
  {
  }

  /** The BMI card colour of each bracket. */
  function BmiVariant(c: BmiCategory): Variant {
    match c
    case Underweight => Warning
    case Normal => Variant.Success
    case Overweight => Warning
    case Obese => Destructive
  }

  /** The BMI card is a warning on both sides of the normal range, a success
      only inside it, and destructive from 30 up (and for NaN). */
  lemma BmiCardVariant(bmi: Num)
    ensures BmiVariant(Categorize(bmi)) == Variant.Success <==> bmi.Finite? && 18.5 <= bmi.value < 25.0
    ensures BmiVariant(Categorize(bmi)) == Warning <==>
              bmi.Finite? && (bmi.value < 18.5 || 25.0 <= bmi.value < 30.0)
    ensures BmiVariant(Categorize(bmi)) == Destructive <==> bmi.NonFinite? || bmi.value >= 30.0
  {
  }

  /** The payload posted when the profile is saved: age and height through
      `parseInt`, weight through `parseFloat`. */
  datatype ProfilePayload = ProfilePayload(
    age: Num, height: Num, weight: Num, gender: string, activityLevel: string, goal: string)

  /** `saveProfile`: nothing is posted while age, height or weight is empty. */
  function SaveProfile(f: ProfileForm, parseInt: string -> Num, parseFloat: string -> Num): (r: Option<ProfilePayload>)
    ensures r.Some? <==> f.age != "" && f.height != "" && f.weight != ""
    ensures r.Some? ==> r.value.gender == f.gender && r.value.activityLevel == f.activityLevel && r.value.goal == f.goal
    ensures r.Some? ==> r.value.age == parseInt(f.age) && r.value.height == parseInt(f.height) && r.value.weight == parseFloat(f.weight)
  {
    if f.age == "" || f.height == "" || f.weight == "" then None
    else Some(ProfilePayload(parseInt(f.age), parseInt(f.height), parseFloat(f.weight), f.gender, f.activityLevel, f.goal))
  }

  /** Saving does not require a gender, but the BMR does: a saved profile can still show a BMR of 0. */
  lemma SaveWithoutGender(f: ProfileForm, parseInt: string -> Num, parseFloat: string -> Num)
    requires f.age != "" && f.height != "" && f.weight != "" && f.gender == ""
    ensures SaveProfile(f, parseInt, parseFloat).Some?
    ensures Bmr(f, parseFloat) == Finite(0.0) && DailyGoal(f, parseFloat) == Finite(GoalAdjustment(f.goal) as real)
  {
  }
}

=== FILE: search.dfy ===
/** The debounced search box shared by the calories and workouts tabs
    (client/src/components/CaloriesTab.tsx and WorkoutsTab.tsx): what happens
    once the typing pauses, and when the result list is shown. */
module Search {
  import opened JsStrings

  /** A query for the typed text, a reload of the whole list, or nothing. */
  datatype SearchAction = Query(text: string) | ReloadAll | Wait

  /** Two or more UTF-16 code units search; an empty box reloads everything; a
      single code unit waits. */
  function Trigger(q: string): (a: SearchAction)
    ensures a.Query? <==> Utf16Length(q) >= 2
    ensures a.Query? ==> a.text == q
    ensures a == ReloadAll <==> q == ""
    ensures a == Wait <==> Utf16Length(q) == 1
  {
    if Utf16Length(q) >= 2 then Query(q)
    else if Utf16Length(q) == 0 then ReloadAll
    else Wait
  }

  /** The result list shows while a query is long enough and nothing is selected. */
  function ShowResults(q: string, selected: bool): (b: bool)
    ensures b <==> !selected && Trigger(q).Query?
  {
    Utf16Length(q) >= 2 && !selected
  }

  /** A query is never sent for an empty text, so it always carries a filter. */
  lemma QueryIsNonEmpty(q: string)
    requires Trigger(q).Query?
    ensures Trigger(q).text != ""
  {
  }

  /** One character outside the Basic Multilingual Plane already counts as two
      code units and starts a search. */
  lemma AstralCharacterSearches(c: char)
    requires c as int > 0xFFFF
    ensures Trigger([c]) == Query([c])
  {
    assert [c][..0] == [];
  }

  /** Two ordinary characters search; one waits. */
  lemma ShortQueries(a: char, b: char)
    requires a as int <= 0xFFFF && b as int <= 0xFFFF
    ensures Trigger([a]) == Wait
    ensures Trigger([a, b]) == Query([a, b])
  {
    assert [a][..0] == [];
    assert [a, b][..1] == [a];
  }
}

=== FILE: tally.dfy ===
/** The list aggregates the daily logs show: `reduce` sums and `filter` counts. */
module Tally {

  /** `xs.reduce((sum, x) => sum + f(x), 0)`, folded left to right. */
  function Sum<T>(xs: seq<T>, f: T -> int): (total: int)
    ensures |xs| == 0 ==> total == 0
    ensures |xs| == 1 ==> total == f(xs[0])
    decreases |xs|
  {
    if |xs| == 0 then 0 else Sum(xs[..|xs| - 1], f) + f(xs[|xs| - 1])
  }

  /** The sum of a concatenation is the sum of the parts: logging one more entry
      adds exactly its own amount. */
  lemma {:induction false} SumAppend<T>(a: seq<T>, b: seq<T>, f: T -> int)
    ensures Sum(a + b, f) == Sum(a, f) + Sum(b, f)
    decreases |b|
  {
    if |b| == 0 {
      assert a + b == a;
    } else {
      SumAppend(a, b[..|b| - 1], f);
      assert (a + b)[..|a + b| - 1] == a + b[..|b| - 1];
    }
  }

  /** Sums of amounts that are never negative are never negative. */
  lemma {:induction false} SumNonNegative<T>(xs: seq<T>, f: T -> int)
    requires forall i :: 0 <= i < |xs| ==> f(xs[i]) >= 0
    ensures Sum(xs, f) >= 0
    decreases |xs|
  {
    if |xs| > 0 {
      SumNonNegative(xs[..|xs| - 1], f);
    }
  }

  /** `xs.filter(p).length` */
  function Count<T>(xs: seq<T>, p: T -> bool): (n: nat)
    ensures n <= |xs|
    ensures n == 0 <== (forall i :: 0 <= i < |xs| ==> !p(xs[i]))
    ensures n == |xs| <== (forall i :: 0 <= i < |xs| ==> p(xs[i]))
    decreases |xs|
  {
    if |xs| == 0 then 0 else Count(xs[..|xs| - 1], p) + (if p(xs[|xs| - 1]) then 1 else 0)
  }

  /** The count over a concatenation is the count of the parts: one more item
      adds one exactly when it matches. */
  lemma {:induction false} CountAppend<T>(a: seq<T>, b: seq<T>, p: T -> bool)
    ensures Count(a + b, p) == Count(a, p) + Count(b, p)
    decreases |b|
  {
    if |b| == 0 {
      assert a + b == a;
    } else {
      CountAppend(a, b[..|b| - 1], p);
      assert (a + b)[..|a + b| - 1] == a + b[..|b| - 1];
    }
  }

  /** A single item counts one exactly when it matches. */
  lemma CountSingle<T>(x: T, p: T -> bool)
    ensures Count([x], p) == if p(x) then 1 else 0
  {
    assert [x][..0] == [];
  }
}

=== FILE: workouts.dfy ===
/** The workouts tab (client/src/components/WorkoutsTab.tsx): the entry built
    when an exercise is added, the day's totals and the share of high-intensity
    workouts. */
module Workouts {
  import opened Outcomes
  import opened JsNumbers
  import opened Cards
  import Tally

  /** An exercise of the database: calories burned per minute and an intensity
      ("Leve", "Moderado" or "Intenso"). */
  datatype Exercise = Exercise(name: string, category: string, caloriesPerMinute: real, intensity: string)

  /** A logged workout, as read back for the day; the intensity column is nullable. */
  datatype WorkoutEntry = WorkoutEntry(exerciseName: string, category: string, duration: int,
                                       caloriesBurned: int, intensity: Option<string>,
                                       date: string, time: string)

  /** The entry posted when a workout is added; NaN where the duration does not parse. */
  datatype NewWorkout = NewWorkout(exerciseName: string, category: string, duration: Num,
                                   caloriesBurned: Num, intensity: string, date: string, time: string)

  /** `addWorkout`: nothing is posted without a selected exercise and a
      duration. The duration goes through `parseInt`; the calories are the
      rate times the minutes, rounded with `Math.round`. */
  function AddWorkout(selected: Option<Exercise>, duration: string, parseInt: string -> Num,
                      today: string, time: string): (r: Option<NewWorkout>)
    ensures r.Some? <==> selected.Some? && duration != ""
    ensures r.Some? ==>
      && r.value.exerciseName == selected.value.name && r.value.category == selected.value.category
      && r.value.intensity == selected.value.intensity && r.value.duration == parseInt(duration)
      && r.value.date == today && r.value.time == time
    ensures r.Some? ==>
      && (r.value.caloriesBurned.Finite? <==> parseInt(duration).Finite?)
      && (parseInt(duration).Finite? ==>
            && -0.5 < r.value.caloriesBurned.value - selected.value.caloriesPerMinute * parseInt(duration).value <= 0.5
            && r.value.caloriesBurned.value == r.value.caloriesBurned.value.Floor as real)
  {
    if selected.None? || duration == "" then None
    else
      var e := selected.value;
      var minutes := parseInt(duration);
      Some(NewWorkout(e.name, e.category, minutes, Round(Scale(minutes, e.caloriesPerMinute)), e.intensity, today, time))
  }

  /** The day's calories burned. */
  function TotalBurned(ws: seq<WorkoutEntry>): (total: int)
    ensures |ws| == 0 ==> total == 0
    ensures |ws| == 1 ==> total == ws[0].caloriesBurned
  {
    Tally.Sum(ws, (w: WorkoutEntry) => w.caloriesBurned)
  }

  /** The day's minutes. */
  function TotalDuration(ws: seq<WorkoutEntry>): (total: int)
    ensures |ws| == 0 ==> total == 0
    ensures |ws| == 1 ==> total == ws[0].duration
  {
    Tally.Sum(ws, (w: WorkoutEntry) => w.duration)
  }

  /** Logging one more workout adds exactly its calories and minutes. */
  lemma TotalsAfterLogging(ws: seq<WorkoutEntry>, w: WorkoutEntry)
    ensures TotalBurned(ws + [w]) == TotalBurned(ws) + w.caloriesBurned
    ensures TotalDuration(ws + [w]) == TotalDuration(ws) + w.duration
    ensures TotalBurned([]) == 0 && TotalDuration([]) == 0
  {
    Tally.SumAppend(ws, [w], (x: WorkoutEntry) => x.caloriesBurned);
    Tally.SumAppend(ws, [w], (x: WorkoutEntry) => x.duration);
    assert [w][..0] == [];
  }

  /** `w.intensity === 'Intenso'` */
  predicate Intense(w: WorkoutEntry) {
    w.intensity == Some("Intenso")
  }

  /** The number of high-intensity workouts. */
  function IntenseCount(ws: seq<WorkoutEntry>): (n: nat)
    ensures n <= |ws|
  {
    Tally.Count(ws, (w: WorkoutEntry) => Intense(w))
  }

  /** Logging one more workout raises the intense count exactly when it is intense. */
  lemma IntenseCountAfterLogging(ws: seq<WorkoutEntry>, w: WorkoutEntry)
    ensures IntenseCount(ws + [w]) == IntenseCount(ws) + (if Intense(w) then 1 else 0)
    ensures IntenseCount([]) == 0
  {
    Tally.CountAppend(ws, [w], (x: WorkoutEntry) => Intense(x));
    Tally.CountSingle(w, (x: WorkoutEntry) => Intense(x));
  }

  /** `averageIntensity`: the percentage of high-intensity workouts, 0 for an empty day. */
  function HighIntensityShare(ws: seq<WorkoutEntry>): (s: real)
    ensures 0.0 <= s <= 100.0
    ensures |ws| > 0 ==> s * |ws| as real == 100.0 * IntenseCount(ws) as real
    ensures |ws| == 0 ==> s == 0.0
  {
    if |ws| > 0 then
      var c := IntenseCount(ws) as real;
      var n := |ws| as real;
      FractionAtMostOne(c, n);
      c / n * 100.0
    else 0.0
  }

  /** A part of a positive whole is at most the whole. */
  lemma FractionAtMostOne(c: real, n: real)
    requires 0.0 <= c <= n && n > 0.0
    ensures 0.0 <= c / n <= 1.0
  {
    assert c / n * n == c;
    ProductSign(c / n - 1.0, n);
  }

  /** The card is a success when more than half of the share is high intensity. */
  function ShareVariant(share: real): (v: Variant)
    ensures v == Variant.Success <==> share > 50.0
    ensures v != Variant.Success ==> v == Default
  {
    if share > 50.0 then Variant.Success else Default
  }

  /** Success exactly when more than half of the day's workouts are intense. */
  lemma ShareSuccessIff(ws: seq<WorkoutEntry>)
    ensures ShareVariant(HighIntensityShare(ws)) == Variant.Success <==> 2 * IntenseCount(ws) > |ws|
  {
    if |ws| > 0 {
      var s := HighIntensityShare(ws);
      var n := |ws| as real;
      var c := IntenseCount(ws) as real;
      var a := s - 50.0;
      ProductSign(a, n);
      assert a * n == 50.0 * (2.0 * c - n);
      assert (2 * IntenseCount(ws) > |ws|) <==> 2.0 * c - n > 0.0;
      assert a > 0.0 <==> 2.0 * c - n > 0.0;
      assert ShareVariant(s) == Variant.Success <==> s > 50.0;
    }
  }

  /** A product with a positive factor keeps the sign of the other. */
  lemma ProductSign(a: real, n: real)
    requires n > 0.0
    ensures a > 0.0 <==> a * n > 0.0
  {
    if a > 0.0 {
      assert a * n > 0.0;
    } else {
      assert (-a) * n >= 0.0;
    }
  }

  /** The percentage shown: `Math.round` of the share. */
  function DisplayedShare(ws: seq<WorkoutEntry>): (p: int)
    ensures 0 <= p <= 100
    ensures -0.5 < p as real - HighIntensityShare(ws) <= 0.5
  {
    MathRound(HighIntensityShare(ws))
  }

  /** The variant is decided on the unrounded share: a share just above 50
      shows "50" on a success card. */
  lemma RoundedShareHidesThreshold(share: real)
    requires 50.0 < share < 50.5
    ensures MathRound(share) == 50 && ShareVariant(share) == Variant.Success
  {
  }
}
